=== FILE: README.md ===
# fastmoni donation backend, modelled in Dafny

The service lets a person sign up with an email, confirm the account with a
one-time code, sign in, set a four-digit PIN and donate to another account's
wallet. It can also list the donations it sent. This project models the
service's core as a sequential state machine over four tables: users,
sessions, wallets and donations.

Each table is a sequence of rows in insertion order. In that view a
`findOne` is the first matching row, a `findAll` is the matching rows in
order, and a bulk `update` rewrites every matching row in place. A primary
key that is already taken makes a `create` fail with Sequelize's
unique-constraint error. Everything before the failing write stays written.
For example, `verifyOtp` marks the account verified and clears its codes
even when the wallet insert collides.

Modules, following the repository's layout:

- **Helpers.**
  - `Http`: `sendResponse` and the reply an Express handler sends.
  - `TxnId` and `WalletNumber`: `generateTxnId` and `generateWalletNumber`. The random draw is a parameter.
  - `Decimal` and `Text`: decimal text and string splitting, which those helpers and the middleware rely on.
  - `Tables`: first match, filter and bulk update over a table.
- **Records.** `UserModel`, `SessionModel`, `WalletModel`, `DonationModel`:
  - the columns and their defaults;
  - the password hooks and `validatePassword`;
  - `getSession`;
  - each model's `toJSON`.
- **Validators.** `Joi` covers the part of the Joi language the validators use: unknown keys refused, numbers converted, defaults filled. `AuthValidation` and `UserValidation` hold the request schemas.
- **Tokens.** `AuthService` issues and verifies tokens. Signing and verification are oracles. Only the `Bearer ` prefix of an issued token is modelled.
- **Middleware.** `AuthPolicy` holds `hasAccessToken` and `hasRefreshToken`.
- **Handlers.** `AuthController` holds signup, signin and verifyOtp. `UserController` holds createPin, donate, getDonations, getDonation and getDonationsByDate.
- **Requests.** `Lifecycle` serves requests one at a time:
  - The authentication routes are mounted before the access-token middleware, and the user routes after it.
  - Each route validates its input before its handler runs.
  - The module proves the table invariant over every run from empty tables: every account has a unique id and email, each verified account owns exactly one wallet, no other account owns one, no verified account keeps a one-time code, stored tokens carry the `Bearer ` prefix, and every row refers to existing accounts.

How outside inputs are handled:

- **Random values.** Fresh primary keys and random draws are fields of the request.
- **Start-up settings.** The production/staging flag, the donation date default fixed at start-up, the signer and the verifier are fields of `Lifecycle.Env`.
- **Middleware lookups.** The middleware's two `findOne` calls put their filters outside `where`. Their results are abstract fields of the request (`Lifecycle.Lookup`), so the model commits to no particular row.
- **The caller.** The handlers take the caller's id from the request context. `Lifecycle.CallerIsLookedUpUser` shows that this is the id of the account the middleware found, whatever the token claims.

Quirks of the code that the model keeps:

- **Balance overwrite.** `donate` assigns the amount to the wallet balance instead of adding it (`UserController.BalanceIsLastAmount`).
- **Unused paging.** `getDonations` ignores `page` and `limit`.
- **By-date listing.**
  - It ignores who is asking.
  - Without both bounds it matches nothing.
  - The donation `date` default is one value fixed when the model file loads, so a by-date query returns all donations or none (`Lifecycle.ByDateAllOrNothing`).
- **Signup.**
  - It looks for an existing session by session id equal to the user's id. So it creates a new session unless some session's id happens to equal the user's id, and an existing session's code is never refreshed.
  - An existing unverified account with the same email keeps its password.
- **Update hook.** `UserModel.BeforeUpdate` models the `beforeUpdate` hook, but no handler fires it. The handlers call the static `UserModel.update(...)` without `individualHooks`, which runs only bulk hooks, so the password is never re-hashed on update.
- **createPin** changes the account named in the path, whoever the caller is.
- **Status codes.** `donate` replies with status 201 and an envelope status of 200.
- **Dead checks.** The second missing-user check in `verifyOtp` and the missing-donation check in `donate` cannot fire.
- **hasAccessToken.**
  - It constructs `Error(...)` without throwing.
  - A missing user is refused only because `toJSON` on null throws.
  - A missing session is let through.
- **hasRefreshToken.** It compares the body's token with the stored one, which carries the `Bearer ` prefix. It verifies the body token first, and a prefixed string never verifies, so no stored session can be refreshed (`Lifecycle.StoredSessionsNeverRefresh`).
- **getSession.** Its `expires_in` is an absolute Unix time, not the duration that the field's comment in src/typings/user.ts describes.

## Model

| member | source | states |
|---|---|---|
| Http.SendResponse | src/helpers/send_response.ts:11-16 | status and message come back unchanged; an omitted payload becomes null and a supplied one is kept |
| Http.EnvelopeJson | src/helpers/send_response.ts:16 | the envelope has exactly the fields message, payload and status, holding the given values |
| TxnId.GenerateTxnId | src/helpers/generate_txn_id.ts:12-14 | the id is "txn-" followed by the draw, each character lower-cased, one for one |
| TxnId.GeneratedIdShape | src/helpers/generate_txn_id.ts:10-14 | a 16-character draw from the letter alphabet gives a 20-character id: "txn-" and 16 letters a-z |
| TxnId.CaseCollapses | src/helpers/generate_txn_id.ts:13 | the id depends on the draw only up to letter case |
| TxnId.DistinctDrawsSameId | src/helpers/generate_txn_id.ts:13 | two different draws can give the same id, so ids are not unique by construction |
| WalletNumber.RandomInt | src/helpers/generate_wallet_number.ts:7-10 | the drawn integer lies between ceil(min) and floor(max) |
| WalletNumber.FromDraw | src/helpers/generate_wallet_number.ts:10 | the number's decimal text is "2267" followed by the draw's decimal text, which is the JavaScript value only for draws below 10^12 (see "## Left out") |
| WalletNumber.FromDrawExactRange | src/helpers/generate_wallet_number.ts:10 | the number is at most 2^53 - 1, so exactly representable as a JavaScript number, exactly when the draw is below 10^12 |
| WalletNumber.GenerateWalletNumber | src/helpers/generate_wallet_number.ts:3-11 | the number is "2267" followed by the draw, read as a number; it exists exactly when the draw is not negative, which holds for non-negative bounds; it is a safe integer exactly when the draw is below 10^12, and only then is it the JavaScript value |
| WalletNumber.DefaultBoundsRange | src/helpers/generate_wallet_number.ts:3-11 | with the default bounds the number is ten digits between 2267100000 and 2267900000 |
| UserModel.CompareHash | src/model/user.model.ts:78-80 | a password matches a stored hash exactly when it is the password that was hashed |
| UserModel.HashIsNotPlain | src/model/user.model.ts:63-67 | the stored hash never equals the plaintext |
| UserModel.BeforeCreate | src/model/user.model.ts:63-67 | the created row holds a hash matching the given password, never the plaintext, and every other field is unchanged |
| UserModel.CreateUser | src/model/user.model.ts:11-67 | a new account is unverified with no PIN and no balance and keeps the given id, email and name; it stores the hash of the password |
| UserModel.BeforeUpdate | src/model/user.model.ts:70-76 | an update re-hashes the password only when it changed and otherwise leaves it as stored; other fields are as written |
| UserModel.UserToJson | src/model/user.model.ts:106-109 | the rendering never holds password or account_pin, renders id as a string, and keeps every other column |
| UserModel.GetSession | src/model/user.model.ts:82-104 | issued_at is the time in seconds; expires_in is issued_at plus the expiry in days times 86400; both tokens are issued for the same account; the user is the account's rendering with is_verified true |
| UserModel.DefaultExpiryDays | src/model/user.model.ts:92 | the expiry "30d" with its non-digits removed reads as 30 days |
| UserModel.ExpiresInIsAbsolute | src/model/user.model.ts:90-93 | expires_in is an absolute time 30 days after now, not the 30-day duration |
| SessionModel.SessionToJson | src/model/session.model.ts:7-35 | a session renders exactly its five columns: id and user_id as strings, the otp as its number and each token as its string when set, and null exactly when unset |
| WalletModel.NewWallet | src/model/wallet.model.ts:9-31 | a new wallet belongs to its owner with balance 0 and a ten-digit number starting 2267 |
| WalletModel.WalletToJson | src/model/wallet.model.ts:49-52 | the rendering has the row's columns, id as a string, every other column unchanged |
| DonationModel.NewDonation | src/model/donation.model.ts:9-43 | a new donation keeps its parties, takes the date fixed at load time and amount 0, and gets a transaction id generated from its own draw |
| DonationModel.NewDonationTxnId | src/model/donation.model.ts:24-28 | the generated transaction id has the txn- shape |
| DonationModel.DonationToJson | src/model/donation.model.ts:65-68 | the rendering has the row's columns, id as a string, every other column unchanged |
| AuthValidation.SignupSchema | src/validation/auth.validation.ts:18-26 | a signup body passes exactly when it has only email, password and full_name, each a string of length 6 to 255 |
| AuthValidation.SignupSchemaValues | src/validation/auth.validation.ts:18-26 | an accepted signup body reaches the handler unchanged |
| AuthValidation.ParseSignup | src/validation/auth.validation.ts:18-26 | the handler gets the three strings exactly when the schema accepts the body |
| AuthValidation.SignupLengthInCodeUnits | src/validation/auth.validation.ts:22 | lengths are counted in UTF-16 code units: four letters and an emoji make six, so such a password passes the minimum of 6 |
| AuthValidation.SignupEmailShapeUnchecked | src/validation/auth.validation.ts:20 | signup checks only the email's length: a six-letter word without @ passes |
| AuthValidation.SigninSchema | src/validation/auth.validation.ts:35-41 | a signin body passes exactly when password is a non-empty string and email, if present, has email shape; it passes through unchanged |
| AuthValidation.ParseSignin | src/validation/auth.validation.ts:35-41 | the handler gets the password and, exactly when given, the email |
| AuthValidation.VerifyOtpSchema | src/validation/auth.validation.ts:50-56 | a verify body passes exactly when otp and email are both non-empty strings with no length bound; it passes through unchanged |
| AuthValidation.ParseVerifyOtp | src/validation/auth.validation.ts:50-56 | the handler gets the otp and email strings exactly when the schema accepts them |
| UserValidation.IdParamSchema | src/validation/user.validation.ts:95-99 | any non-empty path id passes the id schema unchanged |
| UserValidation.CreatePinSchema | src/validation/user.validation.ts:19-31 | a pin body passes exactly when account_pin is absent or a number from 1000 to 9999 |
| UserValidation.ParseCreatePin | src/validation/user.validation.ts:19-31 | the handler gets the converted pin, or none when absent, exactly when the schema accepts |
| UserValidation.DonateSchema | src/validation/user.validation.ts:40-60 | a donate body passes exactly when amount_donated is present, at least 10 and at most the largest safe integer 2^53 - 1, the pin is absent or 1000 to 9999, and the wallet number is absent or ten digits |
| UserValidation.DonateSchemaValues | src/validation/user.validation.ts:40-60 | an accepted donate body reaches the handler with the same keys and each value converted to its number |
| UserValidation.ParseDonate | src/validation/user.validation.ts:40-60 | the handler gets the converted amount, pin and wallet number exactly when the schema accepts |
| UserValidation.DateQuerySchema | src/validation/user.validation.ts:68-74 | a date query passes exactly when it holds only startDate and endDate, each optional and, when given, an integer or a non-empty string of decimal digits read as epoch milliseconds, within 8.64e15 of the epoch as a valid Date is |
| UserValidation.ParseDateQuery | src/validation/user.validation.ts:68-74 | the handler gets the two optional bounds exactly when the query passes |
| UserValidation.PageQuerySchema | src/validation/user.validation.ts:82-88 | a paging query passes exactly when page and limit are absent or an integer or digit string within the safe range of plus or minus 2^53 - 1, and the absent ones are filled with 1 and 10 |
| UserValidation.ParsePageQuery | src/validation/user.validation.ts:82-88 | the handler gets page and limit, defaulting to 1 and 10 |
| UserValidation.AmountRange | src/validation/user.validation.ts:52 | an amount sent as a JSON number passes exactly from 10 to 2^53 - 1; a larger one is refused as unsafe |
| UserValidation.DigitQueryRange | src/validation/user.validation.ts:68-88 | a digit-string query value passes as a page exactly up to 2^53 - 1 and as a start date exactly up to 8.64e15, so longer digit strings are refused |
| UserValidation.PinRangeIsFourDigits | src/validation/user.validation.ts:24-29 | a number is in 1000..9999 exactly when it has four digits |
| UserValidation.WalletRangeIsTenDigits | src/validation/user.validation.ts:54-58 | a number is in 1000000000..9999999999 exactly when it has ten digits |
| UserValidation.GeneratedWalletNumberAccepted | src/helpers/generate_wallet_number.ts:3-11 | every generated wallet number passes the donate wallet-number range |
| AuthPolicy.BearerSignature | src/policy/auth.policy.ts:41-45 | a signature is found exactly when the header is "Bearer", one space and a non-empty piece; that piece is the signature |
| AuthPolicy.BearerPieces | src/policy/auth.policy.ts:41-45 | splitting the header on spaces and checking the first two pieces is the same test as the Bearer shape, and the second piece is the signature |
| AuthPolicy.BearerRoundTrip | src/services/auth.service.ts:31 | an issued "Bearer " + token header gives back the token when the token is non-empty and space-free |
| AuthPolicy.MergeFields | src/policy/auth.policy.ts:62-63 | the request context holds claims, then session fields, then user fields, with later spreads winning |
| AuthPolicy.HasAccessToken | src/policy/auth.policy.ts:36-77 | no Bearer header gives 401 "No Token found"; otherwise the request passes exactly when the token verifies and a user was found; an expired token gives "Expired token" and any other refusal "Invalid token"; a pass carries the found user and session, the user's id, no merged user or session field, and a password field exactly when the verified claims carry one, since the user and session renderings never do |
| AuthPolicy.IssuedAccessTokenPasses | src/policy/auth.policy.ts:36-77 | an issued access token that verifies passes when its account is found |
| AuthPolicy.HasRefreshToken | src/policy/auth.policy.ts:89-130 | the request passes exactly when the body token verifies, a user was found, and the token equals the stored refresh token; expired gives "Expired token", other refusals "Invalid token"; a pass carries the found user and session, the user's id, and a password field exactly when the verified claims carry one |
| AuthPolicy.StoredRefreshTokenNeverPasses | src/policy/auth.policy.ts:116-118 | a stored "Bearer "-prefixed refresh token never passes when the verifier refuses prefixed strings |
| AuthController.Signup | src/controllers/auth.controller.ts:43-73 | a verified email gives 400 "Account already registered with us" and changes nothing; an unknown email adds exactly one unverified account with the hashed password, and a known one adds none; when some session's id equals the account's id the sessions are untouched, and otherwise exactly one session with the code and no tokens is appended; wallets and donations are untouched |
| AuthController.Signin | src/controllers/auth.controller.ts:92-126 | without an email the lookup fails with Sequelize's undefined-in-WHERE error (Unhandled(UNDEFINED_IN_WHERE)); with no verified account for the email, 400 "Invalid email or password"; a wrong password gives "Invalid, email or password"; success replies with the session and writes its tokens onto every session of the account, keeping the otp; only sessions change |
| AuthController.VerifyOtp | src/controllers/auth.controller.ts:145-185 | an unknown email or a wrong code gives 400 and changes nothing; a matching code verifies the account, clears its codes and opens one wallet; a taken wallet key fails after the other writes |
| AuthController.OpenAccount | src/controllers/auth.controller.ts:173-177 | only the account is marked verified, only its sessions lose their code, and one wallet with balance 0 is appended unless the key is taken |
| AuthController.WithTokens | src/controllers/auth.controller.ts:113-118 | every session of the account gets the new token pair and keeps its otp; other sessions are untouched |
| UserController.CreatePin | src/controllers/user.controller.ts:45-65 | an unknown path id gives 404 "Account not found"; otherwise 201 and the path account's pin is set, whoever the caller; no other table changes |
| UserController.Donate | src/controllers/user.controller.ts:84-152 | any failed lookup returns its error and changes nothing; success appends one donation from the caller to the path account with the amount, sets the beneficiary wallet's balance to the amount, and changes no user or session |
| UserController.NoDonateFailureExactly | src/controllers/user.controller.ts:84-131 | no lookup fails exactly when the caller has the given pin, the path account exists and owns a wallet with the given number, and the donation key is fresh |
| UserController.DonateSucceedsExactly | src/controllers/user.controller.ts:84-152 | a donation succeeds exactly when those conditions hold; nothing stops donating to oneself |
| UserController.DonateSetsBalance | src/controllers/user.controller.ts:133-135 | after a donation the found wallet's balance is the amount, and every wallet keeps its number and owner |
| UserController.BalanceIsLastAmount | src/controllers/user.controller.ts:133-135 | two donations to one wallet leave the second amount as the balance, not the sum |
| UserController.SentBy | src/controllers/user.controller.ts:174-179 | the listed donations are exactly the caller's, each as often as it is stored |
| UserController.GetDonations | src/controllers/user.controller.ts:171-194 | 404 "Donations not found" exactly when the caller sent none; otherwise every donation the caller sent, with its beneficiary, whatever page and limit say |
| UserController.DonationView | src/controllers/user.controller.ts:176-178 | a listed donation is its row plus the beneficiary's name, email and id, or null if the account is gone |
| UserController.GetDonation | src/controllers/user.controller.ts:213-236 | success exactly when a donation has the path id and the caller as sender, and then it is that donation; otherwise 404 "Donation not found" |
| UserController.InRange | src/controllers/user.controller.ts:259-265 | the result is exactly the donations dated between the bounds, from every sender, each as often as it is stored; when every donation is in range it is the whole table |
| UserController.GetDonationsByDate | src/controllers/user.controller.ts:255-280 | 404 "Donation not found" exactly when no donation is in range, including when a bound is missing or the bounds are reversed; otherwise the donations in range |
| Lifecycle.SignupInv | src/controllers/auth.controller.ts:43-73 | signup keeps the table invariant |
| Lifecycle.SigninInv | src/controllers/auth.controller.ts:92-126 | signin keeps the table invariant |
| Lifecycle.VerifyOtpInv | src/controllers/auth.controller.ts:145-185 | verifyOtp with a fresh wallet key keeps the table invariant |
| Lifecycle.CreatePinInv | src/controllers/user.controller.ts:45-65 | createPin keeps the table invariant |
| Lifecycle.DonateInv | src/controllers/user.controller.ts:84-152 | donate keeps the table invariant |
| Lifecycle.AuthStep | src/routes/auth.routes.ts:15-25 | on each route the outcome is a validation failure exactly when the route's schema refuses the body, and then nothing changes |
| Lifecycle.UserStep | src/routes/user.routes.ts:15-39 | the read routes change nothing; on each route the outcome is a validation failure exactly when its schema refuses the body or query, and then nothing changes; the single-donation route, whose only schema is the path id, never fails validation |
| Lifecycle.Step | src/routes/index.ts:16-25 | reads change nothing; a user route the middleware refuses replies 401 and changes nothing |
| Lifecycle.CallerIsLookedUpUser | src/policy/auth.policy.ts:50-65 | an admitted user route runs its handler for the account the middleware found |
| Lifecycle.StepInv | src/routes/index.ts:16-25 | any single request keeps the table invariant, provided a verifyOtp request's wallet key is not yet taken |
| Lifecycle.RunInv | src/routes/index.ts:16-25 | any sequence of requests keeps the table invariant, provided each verifyOtp request's wallet key is not yet taken when it is served |
| Lifecycle.ReachableInv | src/controllers/auth.controller.ts:52-57 | every state reached from empty tables, when each verifyOtp request's wallet key is not yet taken, satisfies the invariant: one wallet per verified account and none otherwise, and no code left on a verified account |
| Lifecycle.StepKeepsDates | src/model/donation.model.ts:18-22 | every donation a request adds carries the date fixed at load time |
| Lifecycle.RunKeepsDates | src/model/donation.model.ts:18-22 | over any run, every donation carries that one date |
| Lifecycle.ByDateAllOrNothing | src/controllers/user.controller.ts:255-280 | with one date on every donation, a by-date query returns all donations or 404 |
| Lifecycle.SignupTwiceAddsOneAccount | src/controllers/auth.controller.ts:46-50 | signing up twice with one email adds at most one account, and none if the email was registered |
| Lifecycle.StoredSessionsNeverRefresh | src/policy/auth.policy.ts:116-118 | no session in any valid state passes hasRefreshToken when the verifier refuses prefixed strings |

## Left out

- Express plumbing is not modelled: the server, JSON parsing, and the error service that renders failures. A handler's result is the reply it sends or the failure it passes to `next`.
- jsonwebtoken and bcrypt internals are not modelled. Signing and verification are oracle parameters. The password hash is a fixed tag before the plaintext, which is enough for the match relation.
- A signing failure is not modelled: the signer always returns a token.
- SQL type coercion is not modelled, including how the database compares a text one-time code with its integer column. A code matches when its decimal text equals the stored number.
- Timestamps are not modelled: created_at, updated_at, and the ISO text of expires_at, which the model keeps as milliseconds.
- Dates are epoch-millisecond integers, not ISO strings. Time zones are left out.
- Joi.AsNumber: Joi's number conversion is reduced to integers and strings of decimal digits. Fractions, exponents (`1e1`), a leading sign (`-1`, `+2`) and surrounding spaces are not modelled. This applies to request bodies and to query strings alike.
- UserValidation.DateQuerySchema: only epoch-millisecond integers and digit strings are dates. Joi also accepts ISO text such as `2024-01-01` and signed or fractional numbers such as `-1` and `1.5`, which the model refuses. ParseDateQuery and the by-date iff in Lifecycle.UserStep inherit this.
- UserValidation.PageQuerySchema: it refuses the query values `page=-1`, `page=1.5`, `page=+2`, `page= 2` and `limit=1e1`, which Joi accepts and getDonations then ignores. The cause is the reduced number conversion above.
- WalletNumber.FromDraw: IEEE double rounding is not modelled. For a draw of 10^12 or more the text has seventeen or more digits, above 2^53, and `Number` rounds it: bounds of 1000000000001 give 22671000000000000 in JavaScript, while the model gives 22671000000000001. From 10^21 on, `${r}` is written in exponent form, which is not modelled either. Only draws below 10^12 are exact (WalletNumber.FromDrawExactRange). The one caller uses the default bounds, whose draws have six digits.
- WalletNumber.GenerateWalletNumber: inherits the FromDraw line above for bounds whose draws reach 10^12.
- The rows a `findAll` without `ORDER BY` returns come in no promised order. The model keeps table order, but no contract promises it.
- The email grammar is reduced to its shape: one `@` and a dotted domain.
- generateOTP is a parameter of signup.
- IS_PRODUCTION_OR_STAGING, which the configuration schema does not define, is a boolean parameter.
- Concurrency is not modelled. `Promise.all` is one atomic step, and races on the balance read and write are out.
- The request-scoped `useSession` store is the context the middleware builds, passed to the handler.
- The thank-you email after a donation is not sent. Its text is src/template/email.form.template.ts, which is not part of this model.
- The rows the middleware's unfiltered `findOne` calls return are abstract. Which row the database would pick is not modelled.
- Lifecycle.RunInv: it assumes each `verifyOtp` draws a wallet key not yet in use, as a random v4 UUID is in practice. A colliding key fails after verifying the account, and that state is outside the invariant.
- Joi.Validate: `abortEarly: false` only changes the error report, which is not modelled. A refused input is one validation failure.

=== FILE: auth_controller.dfy ===
/** The authentication handlers: `signup` registers an account and issues a
    one-time code, `verifyOtp` checks the code and opens the wallet, and
    `signin` checks the password and issues a token pair. */
module AuthController {
  import opened Common
  import opened Json
  import opened Http
  import opened Tables
  import Config
  import Decimal
  import AuthService
  import opened UserModel
  import opened SessionModel
  import opened WalletModel
  import opened Database
  import opened AuthValidation

  const ALREADY_REGISTERED: string := "Account already registered with us"
  const SIGNUP_OK: string := "success"
  const NO_VERIFIED_ACCOUNT: string := "Invalid email or password"
  const WRONG_PASSWORD: string := "Invalid, email or password"
  const SIGNIN_OK: string := "successful"
  const NO_ACCOUNT: string := "Invalid email or password"
  const WRONG_OTP: string := "Invalid OTP"
  const VERIFIED_OK: string := "Verified successfully"

  /** The code a new session receives: the generated one in production and
      staging, the configured default elsewhere. */
  function OtpCode(prodOrStaging: bool, generated: int): int {
    if prodOrStaging then generated else Config.DEFAULT_OTP_CODE
  }

  /** The account registered with `email` exists and is verified. */
  predicate RegisteredVerified(db: Db, email: string) {
    var k := UserByEmail(db, email);
    k.Some? && db.users[k.value].is_verified
  }

  /** `SessionModel.findOne({ where: { id } })`. */
  function SessionById(db: Db, id: string): (k: Option<nat>)
    ensures k.Some? ==> k.value < |db.sessions| && db.sessions[k.value].id == id
    ensures k.None? <==> !IsSessionId(db, id)
  {
    FirstIndex(db.sessions, (s: Session) => s.id == id)
  }

  /** The account signup works on: the one found by email, or the row it
      creates. */
  function SignupAccount(db: Db, body: SignupBody, userId: string): User {
    var found := UserByEmail(db, body.email);
    if found.Some? then db.users[found.value] else CreateUser(userId, body.email, body.password, body.full_name)
  }

  /** `signup`. `generated` is what `generateOTP()` returns; `userId` and
      `sessionId` are the fresh primary keys the two inserts would use. */
  function Signup(db: Db, body: SignupBody, prodOrStaging: bool, generated: int, userId: string, sessionId: string): (t: Transition)
    ensures t.db.wallets == db.wallets && t.db.donations == db.donations
    ensures db.users <= t.db.users && |t.db.users| <= |db.users| + 1
    ensures db.sessions <= t.db.sessions && |t.db.sessions| <= |db.sessions| + 1
    ensures t.outcome == Failed(ApiError(BAD_REQUEST, ALREADY_REGISTERED)) <==> RegisteredVerified(db, body.email)
    ensures RegisteredVerified(db, body.email) ==> t.db == db
    ensures t.outcome.Failed? && !t.outcome.failure.ApiError? ==>
      t.outcome.failure == Unhandled(DUPLICATE_KEY) &&
      ((UserByEmail(db, body.email).None? && IsUserId(db, userId)) || IsSessionId(t.db, sessionId))
    ensures t.outcome.Done? ==> t.outcome == Respond(CREATED, SIGNUP_OK, None)
    ensures UserByEmail(db, body.email).Some? ==> t.db.users == db.users
    ensures t.outcome.Done? ==>
      var u := SignupAccount(db, body, userId);
      UserByEmail(t.db, body.email).Some? && t.db.users[UserByEmail(t.db, body.email).value] == u && !u.is_verified &&
      (UserByEmail(db, body.email).None? ==> t.db.users == db.users + [u] && Compare(body.password, u.password))
    ensures t.outcome.Done? && IsSessionId(db, SignupAccount(db, body, userId).id) ==> t.db.sessions == db.sessions
    ensures t.outcome.Done? && !IsSessionId(db, SignupAccount(db, body, userId).id) ==>
      t.db.sessions == db.sessions + [Session(sessionId, Some(OtpCode(prodOrStaging, generated)), SignupAccount(db, body, userId).id, None, None)]
  {
    var found := UserByEmail(db, body.email);
    var u := SignupAccount(db, body, userId);
    var created := if found.Some? then Some(db) else AddUser(db, u);
    match created
    case None => Transition(Failed(Unhandled(DUPLICATE_KEY)), db)
    case Some(db1) =>
      UserByEmailAppend(db, u);
      if u.is_verified then Transition(Failed(ApiError(BAD_REQUEST, ALREADY_REGISTERED)), db1)
      else if SessionById(db1, u.id).Some? then Transition(Respond(CREATED, SIGNUP_OK, None), db1)
      else
        match AddSession(db1, NewSession(sessionId, u.id).(otp := Some(OtpCode(prodOrStaging, generated))))
        case None => Transition(Failed(Unhandled(DUPLICATE_KEY)), db1)
        case Some(db2) => Transition(Respond(CREATED, SIGNUP_OK, None), db2)
  }

  /** `UserModel.findOne({ where: { email, is_verified: true } })`. */
  function VerifiedUserByEmail(db: Db, email: string): (k: Option<nat>)
    ensures k.Some? ==> k.value < |db.users| && db.users[k.value].email == email && db.users[k.value].is_verified
    ensures k.None? <==> forall j :: 0 <= j < |db.users| ==> !(db.users[j].email == email && db.users[j].is_verified)
  {
    FirstIndex(db.users, (u: User) => u.email == email && u.is_verified)
  }

  /** The sessions of user `id` with the token pair of `s` written in. */
  function WithTokens(sessions: seq<Session>, id: string, s: UserSession): (r: seq<Session>)
    ensures |r| == |sessions|
    ensures forall i :: 0 <= i < |sessions| && sessions[i].user_id == id ==>
      r[i] == sessions[i].(access_token := Some(s.access_token), refresh_token := Some(s.refresh_token))
    ensures forall i :: 0 <= i < |sessions| && sessions[i].user_id != id ==> r[i] == sessions[i]
  {
    UpdateWhere(sessions, (x: Session) => x.user_id == id,
                (x: Session) => x.(access_token := Some(s.access_token), refresh_token := Some(s.refresh_token)))
  }

  /** `signin` at wall-clock time `nowMs`. Without an email the lookup's
      WHERE holds `undefined`, which the database layer refuses. Only a
      verified account can sign in; on success every session of the account
      receives the new token pair, which is also the payload. */
  function Signin(db: Db, body: SigninBody, sign: AuthService.Signer, nowMs: nat): (t: Transition)
    ensures t.db.users == db.users && t.db.wallets == db.wallets && t.db.donations == db.donations
    ensures t.outcome.Failed? ==> t.db == db
    ensures body.email.None? ==> t.outcome == Failed(Unhandled(UNDEFINED_IN_WHERE))
    ensures body.email.Some? && VerifiedUserByEmail(db, body.email.value).None? ==>
      t.outcome == Failed(ApiError(BAD_REQUEST, NO_VERIFIED_ACCOUNT))
    ensures body.email.Some? && VerifiedUserByEmail(db, body.email.value).Some? ==>
      var u := db.users[VerifiedUserByEmail(db, body.email.value).value];
      (!Compare(body.password, u.password) <==> t.outcome == Failed(ApiError(BAD_REQUEST, WRONG_PASSWORD)))
    ensures t.outcome.Done? <==>
      body.email.Some? && VerifiedUserByEmail(db, body.email.value).Some? &&
      Compare(body.password, db.users[VerifiedUserByEmail(db, body.email.value).value].password)
    ensures t.outcome.Done? ==>
      var u := db.users[VerifiedUserByEmail(db, body.email.value).value];
      var s := GetSession(u, sign, nowMs);
      t.outcome == Respond(OK, SIGNIN_OK, Some(Obj(UserSessionJson(s)))) &&
      t.db.sessions == WithTokens(db.sessions, u.id, s)
  {
    match body.email
    case None => Transition(Failed(Unhandled(UNDEFINED_IN_WHERE)), db)
    case Some(email) =>
      match VerifiedUserByEmail(db, email)
      case None => Transition(Failed(ApiError(BAD_REQUEST, NO_VERIFIED_ACCOUNT)), db)
      case Some(k) =>
        var u := db.users[k];
        if !Compare(body.password, u.password) then Transition(Failed(ApiError(BAD_REQUEST, WRONG_PASSWORD)), db)
        else
          var s := GetSession(u, sign, nowMs);
          Transition(Respond(OK, SIGNIN_OK, Some(Obj(UserSessionJson(s)))), db.(sessions := WithTokens(db.sessions, u.id, s)))
  }

  /** `otp` is the stored code as the text the body carries. */
  predicate OtpMatches(otp: Option<int>, text: string) {
    otp.Some? && Decimal.IntToString(otp.value) == text
  }

  /** `SessionModel.findOne({ where: { user_id, otp } })`. */
  function OtpSession(db: Db, userId: string, otp: string): (k: Option<nat>)
    ensures k.Some? ==> k.value < |db.sessions| && db.sessions[k.value].user_id == userId && OtpMatches(db.sessions[k.value].otp, otp)
    ensures k.None? <==> forall i :: 0 <= i < |db.sessions| ==>
      !(db.sessions[i].user_id == userId && OtpMatches(db.sessions[i].otp, otp))
  {
    FirstIndex(db.sessions, (s: Session) => s.user_id == userId && OtpMatches(s.otp, otp))
  }

  /** The three writes of a successful check, issued together: the wallet
      insert (refused when `walletId` is taken), every account with the
      email marked verified, and every code of the account cleared. The
      updates land even when the insert is refused. */
  function OpenAccount(db: Db, u: User, walletId: string, draw: real): (r: Db)
    requires 0.0 <= draw < 1.0
    ensures r.donations == db.donations
    ensures |r.users| == |db.users|
    ensures forall j :: 0 <= j < |db.users| ==>
      r.users[j] == if db.users[j].email == u.email then db.users[j].(is_verified := true) else db.users[j]
    ensures |r.sessions| == |db.sessions|
    ensures forall i :: 0 <= i < |db.sessions| ==>
      r.sessions[i] == if db.sessions[i].user_id == u.id then db.sessions[i].(otp := None) else db.sessions[i]
    ensures r.wallets == if IsWalletId(db, walletId) then db.wallets else db.wallets + [NewWallet(walletId, u.id, draw)]
  {
    var wallets := if IsWalletId(db, walletId) then db.wallets else db.wallets + [NewWallet(walletId, u.id, draw)];
    var users := UpdateWhere(db.users, (x: User) => x.email == u.email, (x: User) => x.(is_verified := true));
    var sessions := UpdateWhere(db.sessions, (x: Session) => x.user_id == u.id, (x: Session) => x.(otp := None));
    Db(users, sessions, wallets, db.donations)
  }

  /** `verifyOtp`. `walletId` is the wallet's fresh primary key and `draw`
      the uniform draw behind its number. The second `!user` test of the
      source repeats the first and can never fire. */
  function VerifyOtp(db: Db, body: VerifyOtpBody, walletId: string, draw: real): (t: Transition)
    requires 0.0 <= draw < 1.0
    ensures t.db.donations == db.donations
    ensures UserByEmail(db, body.email).None? ==> t == Transition(Failed(ApiError(BAD_REQUEST, NO_ACCOUNT)), db)
    ensures UserByEmail(db, body.email).Some? ==>
      var u := db.users[UserByEmail(db, body.email).value];
      (OtpSession(db, u.id, body.otp).None? ==> t == Transition(Failed(ApiError(BAD_REQUEST, WRONG_OTP)), db)) &&
      (OtpSession(db, u.id, body.otp).Some? ==>
        t.db == OpenAccount(db, u, walletId, draw) &&
        t.outcome == if IsWalletId(db, walletId) then Failed(Unhandled(DUPLICATE_KEY)) else Respond(OK, VERIFIED_OK, None))
  {
    match UserByEmail(db, body.email)
    case None => Transition(Failed(ApiError(BAD_REQUEST, NO_ACCOUNT)), db)
    case Some(k) =>
      var u := db.users[k];
      match OtpSession(db, u.id, body.otp)
      case None => Transition(Failed(ApiError(BAD_REQUEST, WRONG_OTP)), db)
      case Some(_) =>
        var db1 := OpenAccount(db, u, walletId, draw);
        if IsWalletId(db, walletId) then Transition(Failed(Unhandled(DUPLICATE_KEY)), db1)
        else Transition(Respond(OK, VERIFIED_OK, None), db1)
  }
}

=== FILE: auth_policy.dfy ===
/** The authentication middleware: `hasAccessToken`, mounted in front of
    every user route, and `hasRefreshToken`. Each either passes the request
    on with a session context or answers 401 itself. */
module AuthPolicy {
  import opened Common
  import opened Json
  import opened Http
  import Text
  import opened AuthService
  import opened UserModel
  import opened SessionModel

  const BEARER_WORD: string := "Bearer"

  /** `h` is the "Bearer " prefix followed by a character other than a space. */
  predicate BearerShaped(h: string) {
    |h| > |BEARER_PREFIX| && h[..|BEARER_PREFIX|] == BEARER_PREFIX && h[|BEARER_PREFIX|] != ' '
  }

  /** `t` is the space-free run of characters right after the prefix of `h`. */
  predicate SignatureOf(h: string, t: string) {
    var n := |BEARER_PREFIX|;
    |h| >= n + |t| && h[..n] == BEARER_PREFIX && h[n..n + |t|] == t && ' ' !in t &&
    (n + |t| == |h| || h[n + |t|] == ' ')
  }

  /** `const [bearer, signature] = header?.split(" ") || []`, kept when
      `signature` is non-empty and `bearer` is "Bearer". */
  function BearerSignature(header: Option<string>): (r: Option<string>)
    ensures r.Some? <==> header.Some? && BearerShaped(header.value)
    ensures r.Some? ==> r.value != "" && SignatureOf(header.value, r.value)
  {
    match header
    case None => None
    case Some(h) =>
      var parts := Text.Split(h, ' ');
      BearerPieces(h);
      if |parts| >= 2 && parts[0] == BEARER_WORD && parts[1] != "" then Some(parts[1]) else None
  }

  /** The split-based test and the shape predicate agree, and the second
      piece is the signature. */
  lemma BearerPieces(h: string)
    ensures var parts := Text.Split(h, ' ');
      (|parts| >= 2 && parts[0] == BEARER_WORD && parts[1] != "" <==> BearerShaped(h)) &&
      (BearerShaped(h) ==> SignatureOf(h, parts[1]))
  {
    var parts := Text.Split(h, ' ');
    var n := |BEARER_PREFIX|;
    Text.SplitFirst(h, ' ');
    var p0 := parts[0];
    if BearerShaped(h) {
      assert h[..|BEARER_WORD|] == BEARER_PREFIX[..|BEARER_WORD|] == BEARER_WORD;
      assert h[|BEARER_WORD|] == BEARER_PREFIX[|BEARER_WORD|] == ' ';
      Text.FirstPieceUnique(h, ' ', |BEARER_WORD|);
    }
    if |parts| >= 2 && parts[0] == BEARER_WORD {
      assert h[..n] == BEARER_PREFIX;
      var rest := h[n..];
      Text.SplitFirst(rest, ' ');
      assert parts[1] == Text.Split(rest, ' ')[0];
      var q := parts[1];
      assert rest[..|q|] == q;
      assert h[n..n + |q|] == q;
      assert q != "" <==> |rest| > 0 && rest[0] != ' ';
    }
  }

  /** A token prefixed with "Bearer " yields the token back, provided it is
      non-empty and has no space, as a compact token never has. */
  lemma BearerRoundTrip(t: string)
    requires t != "" && ' ' !in t
    ensures BearerSignature(Some(BEARER_PREFIX + t)) == Some(t)
  {
    var h := BEARER_PREFIX + t;
    assert h[..|BEARER_PREFIX|] == BEARER_PREFIX;
    assert h[|BEARER_PREFIX|] == t[0];
    assert t[0] in t;
    var r := BearerSignature(Some(h));
    var k := |r.value|;
    assert SignatureOf(h, r.value);
    if k < |t| {
      assert false;
    }
    assert r.value == h[|BEARER_PREFIX|..|BEARER_PREFIX| + k] == t;
  }

  /** What the middleware stores with `setSession` for the handlers: the
      merged fields, and the user and session instances that the source
      stores under the keys `user` and `session`, overriding any merged
      field of that name. */
  datatype Context = Context(fields: Object, user: User, session: Option<Session>)

  /** The middleware either calls `next()` with a context or answers itself. */
  datatype Gate = Pass(context: Context) | Deny(reply: Reply)

  function Unauthorized(message: string): (r: Reply)
    ensures r.code == UNAUTHORIZED && r.body.status == UNAUTHORIZED
    ensures r.body.message == message && r.body.payload == Null
  {
    Reply(UNAUTHORIZED, SendResponse(UNAUTHORIZED, message, None))
  }

  const NO_TOKEN: string := "No Token found"
  const EXPIRED_TOKEN: string := "Expired token"
  const INVALID_TOKEN: string := "Invalid token"

  function SessionFieldsOf(session: Option<Session>): Object {
    if session.Some? then SessionToJson(session.value) else map[]
  }

  /** `{ ...token, ...session?.toJSON(), ...user.toJSON() }`: a later source
      overrides an earlier one. */
  function MergeFields(claims: Object, session: Option<Session>, user: User): (o: Object)
    ensures o.Keys == claims.Keys + SessionFieldsOf(session).Keys + UserToJson(user).Keys
    ensures forall k :: k in UserToJson(user) ==> o[k] == UserToJson(user)[k]
    ensures forall k :: k in SessionFieldsOf(session) && k !in UserToJson(user) ==> o[k] == SessionFieldsOf(session)[k]
    ensures forall k :: k in claims && k !in SessionFieldsOf(session) && k !in UserToJson(user) ==> o[k] == claims[k]
  {
    claims + SessionFieldsOf(session) + UserToJson(user)
  }

  /** `hasAccessToken`. `userFound` and `sessionFound` are what the two
      `findOne` calls return. The header must carry a "Bearer" signature,
      which must verify; a missing user ends in a `TypeError` and so in
      "Invalid token", while a missing session does not stop the request
      (the `Error(...)` calls in the source are never thrown). */
  function HasAccessToken(header: Option<string>, verify: Verifier, userFound: Option<User>, sessionFound: Option<Session>): (g: Gate)
    ensures BearerSignature(header).None? ==> g == Deny(Unauthorized(NO_TOKEN))
    ensures g.Pass? <==>
      BearerSignature(header).Some? && verify(BearerSignature(header).value).Verified? && userFound.Some?
    ensures BearerSignature(header).Some? && verify(BearerSignature(header).value).Expired? ==>
      g == Deny(Unauthorized(EXPIRED_TOKEN))
    ensures g.Deny? && BearerSignature(header).Some? && !verify(BearerSignature(header).value).Expired? ==>
      g == Deny(Unauthorized(INVALID_TOKEN))
    ensures g.Pass? ==> g.context.user == userFound.value && g.context.session == sessionFound
    ensures g.Pass? ==> "id" in g.context.fields && g.context.fields["id"] == Str(userFound.value.id)
    ensures g.Pass? ==> "user" !in g.context.fields && "session" !in g.context.fields
    ensures g.Pass? ==> ("password" in g.context.fields <==> "password" in verify(BearerSignature(header).value).claims)
  {
    match BearerSignature(header)
    case None => Deny(Unauthorized(NO_TOKEN))
    case Some(signature) =>
      match verify(signature)
      case Expired => Deny(Unauthorized(EXPIRED_TOKEN))
      case Invalid => Deny(Unauthorized(INVALID_TOKEN))
      case Verified(claims) =>
        match userFound
        case None => Deny(Unauthorized(INVALID_TOKEN))
        case Some(user) =>
          var fields := MergeFields(claims, sessionFound, user) - {"user", "session"};
          assert "id" in UserToJson(user);
          Pass(Context(fields, user, sessionFound))
  }

  /** An access token as `issueAccessToken` returns it passes the header
      check and reaches verification with the compact token the signer
      produced, which is never empty and has no space. */
  lemma IssuedAccessTokenPasses(sign: Signer, verify: Verifier, id: string, email: string,
                                userFound: Option<User>, sessionFound: Option<Session>)
    requires sign(AccessRequest(id, email)) != "" && ' ' !in sign(AccessRequest(id, email))
    requires verify(sign(AccessRequest(id, email))).Verified?
    requires userFound.Some?
    ensures HasAccessToken(Some(IssueAccessToken(sign, id, email)), verify, userFound, sessionFound).Pass?
  {
    BearerRoundTrip(sign(AccessRequest(id, email)));
  }

  /** `hasRefreshToken`. The body's `refresh_token` is verified as given;
      the session found must hold exactly that string as its refresh token,
      and a user must have been found. */
  function HasRefreshToken(bodyToken: Option<string>, verify: Verifier, userFound: Option<User>, sessionFound: Option<Session>): (g: Gate)
    ensures g.Pass? <==>
      bodyToken.Some? && verify(bodyToken.value).Verified? &&
      sessionFound.Some? && sessionFound.value.refresh_token == bodyToken && userFound.Some?
    ensures bodyToken.Some? && verify(bodyToken.value).Expired? ==> g == Deny(Unauthorized(EXPIRED_TOKEN))
    ensures g.Deny? && !(bodyToken.Some? && verify(bodyToken.value).Expired?) ==> g == Deny(Unauthorized(INVALID_TOKEN))
    ensures g.Pass? ==> g.context.user == userFound.value && g.context.session == sessionFound
    ensures g.Pass? ==> "id" in g.context.fields && g.context.fields["id"] == Str(userFound.value.id)
    ensures g.Pass? ==> "user" !in g.context.fields
    ensures g.Pass? ==> ("password" in g.context.fields <==> "password" in verify(bodyToken.value).claims)
  {
    match bodyToken
    case None => Deny(Unauthorized(INVALID_TOKEN))
    case Some(token) =>
      match verify(token)
      case Expired => Deny(Unauthorized(EXPIRED_TOKEN))
      case Invalid => Deny(Unauthorized(INVALID_TOKEN))
      case Verified(claims) =>
        if sessionFound.None? || sessionFound.value.refresh_token != Some(token) then Deny(Unauthorized(INVALID_TOKEN))
        else
          match userFound
          case None => Deny(Unauthorized(INVALID_TOKEN))
          case Some(user) =>
            var fields := MergeFields(claims, sessionFound, user) - {"user"};
            assert "id" in UserToJson(user);
            Pass(Context(fields, user, sessionFound))
  }

  /** Refresh tokens are stored as issued, with the "Bearer " prefix, and
      the body token is verified without removing it. A verifier that
      refuses prefixed strings (a compact token has no space) therefore
      denies every request whose session holds an issued refresh token. */
  lemma StoredRefreshTokenNeverPasses(bodyToken: Option<string>, verify: Verifier, userFound: Option<User>,
                                      session: Session, compact: string)
    requires session.refresh_token == Some(BEARER_PREFIX + compact)
    requires bodyToken.Some? && |bodyToken.value| >= |BEARER_PREFIX| && bodyToken.value[..|BEARER_PREFIX|] == BEARER_PREFIX ==>
      !verify(bodyToken.value).Verified?
    ensures HasRefreshToken(bodyToken, verify, userFound, Some(session)).Deny?
  {
    assert (BEARER_PREFIX + compact)[..|BEARER_PREFIX|] == BEARER_PREFIX;
  }
}

=== FILE: auth_service.dfy ===
/** Token issuance and verification. Signing and verifying are left to the
    JSON Web Token library; the model keeps what this service adds around
    them: the claims it asks for and the "Bearer " prefix on issued tokens. */
module AuthService {
  import opened Json
  import Config

  datatype TokenKind = AccessToken | RefreshToken

  /** What `jwt.sign` is asked to sign: payload `{ email }`, with audience,
      issuer and expiry options, under the secret of the given kind. */
  datatype TokenRequest = TokenRequest(kind: TokenKind, email: string, audience: string, issuer: string, expiresIn: string)

  /** The signing library: the compact token it returns for a request. */
  type Signer = TokenRequest -> string

  /** What verifying a token gives: its claims, or the library's
      `TokenExpiredError`, or any other verification error. */
  datatype Verification = Verified(claims: Object) | Expired | Invalid

  /** The verifying library, for one of the two secrets. */
  type Verifier = string -> Verification

  const ISSUER: string := "fastmoni.com"
  const BEARER_PREFIX: string := "Bearer "

  function AccessRequest(id: string, email: string): TokenRequest {
    TokenRequest(AccessToken, email, id, ISSUER, Config.ACCESS_TOKEN_EXPIRY)
  }

  function RefreshRequest(id: string, email: string): TokenRequest {
    TokenRequest(RefreshToken, email, id, ISSUER, Config.REFRESH_TOKEN_EXPIRY)
  }

  /** `issueAccessToken({ id, email })`. */
  function IssueAccessToken(sign: Signer, id: string, email: string): string {
    BEARER_PREFIX + sign(AccessRequest(id, email))
  }

  /** `issueRefreshToken({ id, email })`. */
  function IssueRefreshToken(sign: Signer, id: string, email: string): string {
    BEARER_PREFIX + sign(RefreshRequest(id, email))
  }
}

=== FILE: auth_validation.dfy ===
/** The request schemas of the authentication routes and the typed bodies
    the handlers read from the validated objects. */
module AuthValidation {
  import opened Common
  import opened Json
  import opened Joi
  import Text

  /** `Joi.string().min(6).max(255).required()`. */
  const BOUNDED_STRING: Rule := StringRule(6, Some(255), false, true)

  /** `Joi.string().required()`. */
  const REQUIRED_STRING: Rule := StringRule(0, None, false, true)

  const SIGNUP: Schema := [
    Field("email", BOUNDED_STRING),
    Field("password", BOUNDED_STRING),
    Field("full_name", BOUNDED_STRING)]

  const SIGNIN: Schema := [
    Field("email", StringRule(0, None, true, false)),
    Field("password", REQUIRED_STRING)]

  const VERIFY_OTP: Schema := [
    Field("otp", REQUIRED_STRING),
    Field("email", REQUIRED_STRING)]

  predicate BoundedString(v: Value) {
    v.Str? && 6 <= Text.Utf16Length(v.s) <= 255
  }

  predicate NonEmptyString(v: Value) {
    v.Str? && v.s != ""
  }

  predicate EmailString(v: Value) {
    v.Str? && v.s != "" && IsEmail(v.s)
  }

  datatype SignupBody = SignupBody(email: string, password: string, full_name: string)

  datatype SigninBody = SigninBody(email: Option<string>, password: string)

  datatype VerifyOtpBody = VerifyOtpBody(otp: string, email: string)

  /** A signup body passes exactly when it has the three keys and nothing
      else, each a string of 6 to 255 characters. */
  lemma {:induction false} SignupSchema(body: Object)
    ensures DistinctKeys(SIGNUP)
    ensures Validate(SIGNUP, body).Some? <==>
      body.Keys == {"email", "password", "full_name"} &&
      BoundedString(body["email"]) && BoundedString(body["password"]) && BoundedString(body["full_name"])
  {
    assert SIGNUP[0].key == "email" && SIGNUP[1].key == "password" && SIGNUP[2].key == "full_name";
    assert Keys(SIGNUP) == {"email", "password", "full_name"};
  }

  /** What passes, passes unchanged. */
  lemma {:induction false} SignupSchemaValues(body: Object)
    requires DistinctKeys(SIGNUP)
    ensures Validate(SIGNUP, body).Some? ==> Validate(SIGNUP, body).value == body
  {
    var r := Validate(SIGNUP, body);
    if r.Some? {
      assert SIGNUP[0].key == "email" && SIGNUP[1].key == "password" && SIGNUP[2].key == "full_name";
      assert Keys(SIGNUP) == {"email", "password", "full_name"};
      ValidatedKeys(SIGNUP, body);
    }
  }

  /** The signup handler's reading of the body, after validation. */
  function ParseSignup(body: Object): (r: Option<SignupBody>)
    ensures r.Some? <==>
      body.Keys == {"email", "password", "full_name"} &&
      BoundedString(body["email"]) && BoundedString(body["password"]) && BoundedString(body["full_name"])
    ensures r.Some? ==> r.value == SignupBody(body["email"].s, body["password"].s, body["full_name"].s)
  {
    SignupSchema(body);
    SignupSchemaValues(body);
    match Validate(SIGNUP, body)
    case None => None
    case Some(o) => Some(SignupBody(o["email"].s, o["password"].s, o["full_name"].s))
  }

  /** A signin body passes exactly when it holds a non-empty `password`
      string, optionally an `email` string of email shape, and nothing else;
      it passes unchanged. */
  lemma {:induction false} SigninSchema(body: Object)
    ensures DistinctKeys(SIGNIN)
    ensures Validate(SIGNIN, body).Some? <==>
      body.Keys <= {"email", "password"} && "password" in body && NonEmptyString(body["password"]) &&
      ("email" in body ==> EmailString(body["email"]))
    ensures Validate(SIGNIN, body).Some? ==> Validate(SIGNIN, body).value == body
  {
    assert SIGNIN[0].key == "email" && SIGNIN[1].key == "password";
    assert Keys(SIGNIN) == {"email", "password"};
    var r := Validate(SIGNIN, body);
    if r.Some? {
      assert Get(r.value, "email") == Get(body, "email") by { assert SIGNIN[0].key == "email"; }
      assert Get(r.value, "password") == Get(body, "password") by { assert SIGNIN[1].key == "password"; }
    }
  }

  /** The signin handler's reading of the body, after validation. */
  function ParseSignin(body: Object): (r: Option<SigninBody>)
    ensures r.Some? <==>
      body.Keys <= {"email", "password"} && "password" in body && NonEmptyString(body["password"]) &&
      ("email" in body ==> EmailString(body["email"]))
    ensures r.Some? ==> r.value.password == body["password"].s
    ensures r.Some? ==> (r.value.email.Some? <==> "email" in body)
    ensures r.Some? && "email" in body ==> r.value.email == Some(body["email"].s)
  {
    SigninSchema(body);
    match Validate(SIGNIN, body)
    case None => None
    case Some(o) =>
      Some(SigninBody(if "email" in o then Some(o["email"].s) else None, o["password"].s))
  }

  /** A verify-otp body passes exactly when it holds non-empty `otp` and
      `email` strings and nothing else; it passes unchanged. */
  lemma {:induction false} VerifyOtpSchema(body: Object)
    ensures DistinctKeys(VERIFY_OTP)
    ensures Validate(VERIFY_OTP, body).Some? <==>
      body.Keys == {"otp", "email"} && NonEmptyString(body["otp"]) && NonEmptyString(body["email"])
    ensures Validate(VERIFY_OTP, body).Some? ==> Validate(VERIFY_OTP, body).value == body
  {
    assert VERIFY_OTP[0].key == "otp" && VERIFY_OTP[1].key == "email";
    assert Keys(VERIFY_OTP) == {"otp", "email"};
    var r := Validate(VERIFY_OTP, body);
    if r.Some? {
      assert Get(r.value, "otp") == Get(body, "otp") by { assert VERIFY_OTP[0].key == "otp"; }
      assert Get(r.value, "email") == Get(body, "email") by { assert VERIFY_OTP[1].key == "email"; }
    }
  }

  /** The verify-otp handler's reading of the body, after validation. */
  function ParseVerifyOtp(body: Object): (r: Option<VerifyOtpBody>)
    ensures r.Some? <==>
      body.Keys == {"otp", "email"} && NonEmptyString(body["otp"]) && NonEmptyString(body["email"])
    ensures r.Some? ==> r.value == VerifyOtpBody(body["otp"].s, body["email"].s)
  {
    VerifyOtpSchema(body);
    match Validate(VERIFY_OTP, body)
    case None => None
    case Some(o) => Some(VerifyOtpBody(o["otp"].s, o["email"].s))
  }

  /** Lengths are counted as JavaScript counts them: a password of four
      letters and one emoji is five characters but six code units, enough
      for the minimum of 6. */
  lemma SignupLengthInCodeUnits()
    ensures |"abcd\U{1F600}"| == 5
    ensures ParseSignup(map["email" := Str("ada@fm.io"), "password" := Str("abcd\U{1F600}"), "full_name" := Str("Ada Obi")]).Some?
  {
    var body := map["email" := Str("ada@fm.io"), "password" := Str("abcd\U{1F600}"), "full_name" := Str("Ada Obi")];
    assert body.Keys == {"email", "password", "full_name"};
  }

  /** The signup schema checks only the length of `email`: a six-letter
      word with no `@` is accepted. */
  lemma SignupEmailShapeUnchecked()
    ensures !IsEmail("abcdef")
    ensures ParseSignup(map["email" := Str("abcdef"), "password" := Str("secret"), "full_name" := Str("Ada Obi")]).Some?
  {
    var body := map["email" := Str("abcdef"), "password" := Str("secret"), "full_name" := Str("Ada Obi")];
    assert body.Keys == {"email", "password", "full_name"};
    Text.SplitWithoutSep("abcdef", '@');
  }
}

=== FILE: common.dfy ===
/** Option, shared by every module of the model. */
module Common {

  /** A value that may be absent: a JavaScript `undefined`/`null` field or a
      lookup that found nothing. */
  datatype Option<+T> = None | Some(value: T) {

    /** The value, or `default` when absent. */
    function GetOr(default: T): T {
      match this
      case Some(v) => v
      case None => default
    }
  }
}

=== FILE: config.dfy ===
/** Configuration values, at the defaults of the environment schema. */
module Config {
  const OTP_MIN_NUMBER: real := 100000.0
  const OTP_MAX_NUMBER: real := 900000.0
  const DEFAULT_OTP_CODE: int := 123456
  const ACCESS_TOKEN_EXPIRY: string := "30d"
  const REFRESH_TOKEN_EXPIRY: string := "1yr"
}

=== FILE: database.dfy ===
/** The four tables and the invariant the handlers keep between requests. */
module Database {
  import opened Common
  import opened UserModel
  import opened SessionModel
  import opened WalletModel
  import opened DonationModel
  import AuthService
  import Http
  import Tables

  /** Every table as a sequence of rows in insertion order. */
  datatype Db = Db(users: seq<User>, sessions: seq<Session>, wallets: seq<Wallet>, donations: seq<Donation>)

  const EMPTY: Db := Db([], [], [], [])

  predicate UserIdsUnique(db: Db) {
    forall i, j :: 0 <= i < j < |db.users| ==> db.users[i].id != db.users[j].id
  }

  /** The `unique` constraint on `email`. */
  predicate EmailsUnique(db: Db) {
    forall i, j :: 0 <= i < j < |db.users| ==> db.users[i].email != db.users[j].email
  }

  predicate IsUserId(db: Db, id: string) {
    exists j :: 0 <= j < |db.users| && db.users[j].id == id
  }

  predicate SessionOwnersAreUsers(db: Db) {
    forall i :: 0 <= i < |db.sessions| ==> IsUserId(db, db.sessions[i].user_id)
  }

  predicate WalletOwnersAreUsers(db: Db) {
    forall i :: 0 <= i < |db.wallets| ==> IsUserId(db, db.wallets[i].owner_id)
  }

  predicate HasWallet(db: Db, id: string) {
    exists i :: 0 <= i < |db.wallets| && db.wallets[i].owner_id == id
  }

  /** A user is verified exactly when a wallet was opened for them. */
  predicate VerifiedIffWallet(db: Db) {
    forall j :: 0 <= j < |db.users| ==> (db.users[j].is_verified <==> HasWallet(db, db.users[j].id))
  }

  predicate AtMostOneWallet(db: Db) {
    forall i, k :: 0 <= i < k < |db.wallets| ==> db.wallets[i].owner_id != db.wallets[k].owner_id
  }

  /** No session of a verified user still holds a one-time code. */
  predicate VerifiedHaveNoOtp(db: Db) {
    forall i, j ::
      0 <= i < |db.sessions| && 0 <= j < |db.users| && db.sessions[i].user_id == db.users[j].id && db.users[j].is_verified
      ==> db.sessions[i].otp.None?
  }

  predicate IsBearer(t: Option<string>) {
    t.Some? ==> |t.value| >= |AuthService.BEARER_PREFIX| && t.value[..|AuthService.BEARER_PREFIX|] == AuthService.BEARER_PREFIX
  }

  /** Stored tokens are as issued, with the "Bearer " prefix. */
  predicate TokensAsIssued(db: Db) {
    forall i :: 0 <= i < |db.sessions| ==> IsBearer(db.sessions[i].access_token) && IsBearer(db.sessions[i].refresh_token)
  }

  predicate DonationPartiesAreUsers(db: Db) {
    forall i :: 0 <= i < |db.donations| ==>
      IsUserId(db, db.donations[i].sender_id) && IsUserId(db, db.donations[i].beneficiary_id)
  }

  predicate Inv(db: Db) {
    UserIdsUnique(db) && EmailsUnique(db) && SessionOwnersAreUsers(db) && WalletOwnersAreUsers(db) &&
    VerifiedIffWallet(db) && AtMostOneWallet(db) && VerifiedHaveNoOtp(db) && TokensAsIssued(db) &&
    DonationPartiesAreUsers(db)
  }

  lemma EmptyInv()
    ensures Inv(EMPTY)
  {
  }

  /** A handler's result: the reply or failure, and the tables afterwards
      (writes that landed before a failure stay). */
  datatype Transition = Transition(outcome: Http.Outcome, db: Db)

  /** `UserModel.findOne({ where: { email } })`. */
  function UserByEmail(db: Db, email: string): (k: Option<nat>)
    ensures k.Some? ==> k.value < |db.users| && db.users[k.value].email == email
    ensures k.Some? ==> forall j :: 0 <= j < k.value ==> db.users[j].email != email
    ensures k.None? <==> forall j :: 0 <= j < |db.users| ==> db.users[j].email != email
  {
    Tables.FirstIndex(db.users, (u: User) => u.email == email)
  }

  /** `UserModel.findOne({ where: { id } })`. */
  function UserById(db: Db, id: string): (k: Option<nat>)
    ensures k.Some? ==> k.value < |db.users| && db.users[k.value].id == id
    ensures k.Some? ==> forall j :: 0 <= j < k.value ==> db.users[j].id != id
    ensures k.None? <==> !IsUserId(db, id)
  {
    Tables.FirstIndex(db.users, (u: User) => u.id == id)
  }

  /** With unique emails, the row found by email is the only one. */
  lemma UserByEmailUnique(db: Db, email: string, j: nat)
    requires EmailsUnique(db) && j < |db.users| && db.users[j].email == email
    ensures UserByEmail(db, email) == Some(j)
  {
  }

  /** A row appended under a new email is the one found by that email. */
  lemma UserByEmailAppend(db: Db, u: User)
    ensures UserByEmail(db, u.email).None? ==> UserByEmail(db.(users := db.users + [u]), u.email) == Some(|db.users|)
  {
    var db1 := db.(users := db.users + [u]);
    assert db1.users[|db.users|] == u;
  }

  /** With unique ids, the row found by id is the only one. */
  lemma UserByIdUnique(db: Db, id: string, j: nat)
    requires UserIdsUnique(db) && j < |db.users| && db.users[j].id == id
    ensures UserById(db, id) == Some(j)
  {
  }

  /** The text of a database error raised by a primary-key collision. */
  const DUPLICATE_KEY: string := "SequelizeUniqueConstraintError"

  /** The text of the error Sequelize raises for `undefined` in a WHERE. */
  const UNDEFINED_IN_WHERE: string := "WHERE parameter has invalid \"undefined\" value"

  /** An insert into `users`: refused when the primary key is taken. */
  function AddUser(db: Db, u: User): (r: Option<Db>)
    ensures r.None? <==> IsUserId(db, u.id)
    ensures r.Some? ==> r.value == db.(users := db.users + [u])
  {
    if IsUserId(db, u.id) then None else Some(db.(users := db.users + [u]))
  }

  predicate IsSessionId(db: Db, id: string) {
    exists i :: 0 <= i < |db.sessions| && db.sessions[i].id == id
  }

  /** An insert into `sessions`: refused when the primary key is taken. */
  function AddSession(db: Db, s: Session): (r: Option<Db>)
    ensures r.None? <==> IsSessionId(db, s.id)
    ensures r.Some? ==> r.value == db.(sessions := db.sessions + [s])
  {
    if IsSessionId(db, s.id) then None else Some(db.(sessions := db.sessions + [s]))
  }

  predicate IsWalletId(db: Db, id: string) {
    exists i :: 0 <= i < |db.wallets| && db.wallets[i].id == id
  }

  predicate IsDonationId(db: Db, id: string) {
    exists i :: 0 <= i < |db.donations| && db.donations[i].id == id
  }
}

=== FILE: decimal.dfy ===
/** Decimal text of integers, as JavaScript's `String(n)` renders it and
    `Number(s)` reads it back, plus the digit filter `s.replace(/\D/g, "")`. */
module Decimal {

  predicate IsDigit(c: char) {
    '0' <= c <= '9'
  }

  predicate AllDigits(s: string) {
    forall i :: 0 <= i < |s| ==> IsDigit(s[i])
  }

  /** The canonical form `String(n)` produces: digits only, no leading zero. */
  predicate Canonical(s: string) {
    |s| >= 1 && AllDigits(s) && (|s| > 1 ==> s[0] != '0')
  }

  function DigitChar(d: nat): (c: char)
    requires d < 10
    ensures IsDigit(c)
  {
    ('0' as int + d) as char
  }

  function DigitValue(c: char): (d: nat)
    requires IsDigit(c)
    ensures d < 10
  {
    c as int - '0' as int
  }

  /** `Number.MAX_SAFE_INTEGER`, 2^53 - 1: every integer no larger in
      magnitude is exactly a JavaScript number, and above it doubles skip
      integers. */
  const MAX_SAFE_INTEGER: int := 9007199254740991

  function Pow10(k: nat): (p: nat)
    ensures p >= 1
  {
    if k == 0 then 1 else 10 * Pow10(k - 1)
  }

  /** `String(n)` for a non-negative integer. */
  function NatToString(n: nat): (s: string)
    ensures Canonical(s)
  {
    if n < 10 then [DigitChar(n)] else NatToString(n / 10) + [DigitChar(n % 10)]
  }

  /** `String(n)` for any integer. */
  function IntToString(n: int): string {
    if n >= 0 then NatToString(n) else "-" + NatToString(-n)
  }

  /** `Number(s)` for a string of digits; `Number("")` is 0. */
  function ParseDecimal(s: string): (n: nat)
    requires AllDigits(s)
    ensures n < Pow10(|s|)
  {
    if |s| == 0 then 0 else ParseDecimal(s[..|s| - 1]) * 10 + DigitValue(s[|s| - 1])
  }

  /** `s.replace(/\D/g, "")`: every non-digit removed, order kept. */
  function KeepDigits(s: string): (r: string)
    ensures AllDigits(r)
    ensures |r| <= |s|
  {
    if |s| == 0 then ""
    else if IsDigit(s[0]) then [s[0]] + KeepDigits(s[1..])
    else KeepDigits(s[1..])
  }

  lemma {:induction false} ParseNatToString(n: nat)
    ensures ParseDecimal(NatToString(n)) == n
  {
    if n >= 10 {
      var s := NatToString(n);
      ParseNatToString(n / 10);
      assert s[..|s| - 1] == NatToString(n / 10);
    }
  }

  lemma {:induction false} LeadingDigitBound(s: string)
    requires Canonical(s) && |s| > 1
    ensures ParseDecimal(s) >= Pow10(|s| - 1)
    decreases |s|
  {
    var init := s[..|s| - 1];
    assert init[0] == s[0];
    if |init| > 1 {
      LeadingDigitBound(init);
    } else {
      assert ParseDecimal(init) == DigitValue(init[0]);
    }
  }

  lemma {:induction false} NatToStringParse(s: string)
    requires Canonical(s)
    ensures NatToString(ParseDecimal(s)) == s
    decreases |s|
  {
    if |s| > 1 {
      var init := s[..|s| - 1];
      assert init[0] == s[0];
      assert Canonical(init);
      NatToStringParse(init);
      LeadingDigitBound(s);
      var n := ParseDecimal(s);
      assert n / 10 == ParseDecimal(init);
      assert n % 10 == DigitValue(s[|s| - 1]);
      assert s == init + [s[|s| - 1]];
    }
  }

  lemma AllDigitsConcat(a: string, b: string)
    requires AllDigits(a) && AllDigits(b)
    ensures AllDigits(a + b)
  {
    forall i | 0 <= i < |a + b| ensures IsDigit((a + b)[i]) {
      if i < |a| { assert (a + b)[i] == a[i]; } else { assert (a + b)[i] == b[i - |a|]; }
    }
  }

  lemma ShiftStep(pa: nat, p: nat, q: nat, d: nat)
    ensures (pa * p + q) * 10 + d == pa * (10 * p) + (q * 10 + d)
  {
  }

  /** Reading a concatenation: the digits of `a` are shifted by `|b|` places. */
  lemma {:induction false} ParseConcat(a: string, b: string)
    requires AllDigits(a) && AllDigits(b)
    ensures AllDigits(a + b)
    ensures ParseDecimal(a + b) == ParseDecimal(a) * Pow10(|b|) + ParseDecimal(b)
    decreases |b|
  {
    AllDigitsConcat(a, b);
    if |b| == 0 {
      assert a + b == a;
    } else {
      var b' := b[..|b| - 1];
      var d := DigitValue(b[|b| - 1]);
      ParseConcat(a, b');
      assert (a + b)[..|a + b| - 1] == a + b';
      assert (a + b)[|a + b| - 1] == b[|b| - 1];
      assert ParseDecimal(a + b) == ParseDecimal(a + b') * 10 + d;
      assert ParseDecimal(b) == ParseDecimal(b') * 10 + d;
      ShiftStep(ParseDecimal(a), Pow10(|b'|), ParseDecimal(b'), d);
    }
  }

  lemma {:induction false} Pow10Monotone(i: nat, j: nat)
    requires i <= j
    ensures Pow10(i) <= Pow10(j)
    decreases j
  {
    if i < j {
      Pow10Monotone(i, j - 1);
    }
  }

  /** `String(n)` has `k` digits exactly when `n` lies in `[10^(k-1), 10^k)`
      (for one digit the lower end is 0). */
  lemma {:induction false} DigitCount(n: nat, k: nat)
    requires k >= 1
    ensures |NatToString(n)| == k <==> (if k == 1 then 0 else Pow10(k - 1)) <= n < Pow10(k)
    decreases n
  {
    if n < 10 {
      if k >= 2 {
        Pow10Monotone(1, k - 1);
      }
    } else {
      assert |NatToString(n)| == |NatToString(n / 10)| + 1;
      assert |NatToString(n / 10)| >= 1;
      if k >= 2 {
        DigitCount(n / 10, k - 1);
        if k >= 3 {
          assert Pow10(k - 1) == 10 * Pow10(k - 2);
        }
      }
    }
  }

  /** The digit filter distributes over concatenation: order is kept. */
  lemma {:induction false} KeepDigitsConcat(a: string, b: string)
    ensures KeepDigits(a + b) == KeepDigits(a) + KeepDigits(b)
    decreases |a|
  {
    if |a| > 0 {
      assert (a + b)[0] == a[0];
      assert (a + b)[1..] == a[1..] + b;
      KeepDigitsConcat(a[1..], b);
    } else {
      assert a + b == b;
    }
  }

  /** The filter leaves a string unchanged exactly when it is all digits. */
  lemma {:induction false} KeepDigitsFixed(s: string)
    ensures KeepDigits(s) == s <==> AllDigits(s)
    decreases |s|
  {
    if |s| > 0 {
      KeepDigitsFixed(s[1..]);
      if !IsDigit(s[0]) {
        assert |KeepDigits(s)| < |s|;
      }
    }
  }
}

=== FILE: donation_model.dfy ===
/** The donation record: an amount sent from one user to another, stamped
    with a date and a transaction id. */
module DonationModel {
  import opened Json
  import TxnId

  datatype Donation = Donation(
    id: string,
    date: int,
    txn_id: string,
    sender_id: string,
    beneficiary_id: string,
    amount_donated: int)

  /** A row as `create({ sender_id, beneficiary_id })` builds it. The `date`
      default is one value computed when the module is loaded, `loadDate`,
      and so is the same for every row; `txn_id` is generated per row from
      `draw`; the amount defaults to 0. */
  function NewDonation(id: string, sender_id: string, beneficiary_id: string, loadDate: int, draw: string): (d: Donation)
    ensures d.id == id && d.sender_id == sender_id && d.beneficiary_id == beneficiary_id
    ensures d.date == loadDate
    ensures d.amount_donated == 0
    ensures d.txn_id == TxnId.GenerateTxnId(draw)
  {
    Donation(id, loadDate, TxnId.GenerateTxnId(draw), sender_id, beneficiary_id, 0)
  }

  /** A donation built from a well-formed draw carries a well-formed
      transaction id. */
  lemma NewDonationTxnId(id: string, sender_id: string, beneficiary_id: string, loadDate: int, draw: string)
    requires TxnId.IsDraw(draw)
    ensures TxnId.IsTxnId(NewDonation(id, sender_id, beneficiary_id, loadDate, draw).txn_id)
  {
    TxnId.GeneratedIdShape(draw);
  }

  /** The row's `dataValues`, with the date as epoch milliseconds. */
  function DonationRow(d: Donation): Object {
    map[
      "id" := Str(d.id),
      "date" := Num(d.date),
      "txn_id" := Str(d.txn_id),
      "sender_id" := Str(d.sender_id),
      "beneficiary_id" := Str(d.beneficiary_id),
      "amount_donated" := Num(d.amount_donated)]
  }

  /** `toJSON`: every column, with `id` rendered through `String`. */
  function DonationToJson(d: Donation): (o: Object)
    ensures o.Keys == DonationRow(d).Keys
    ensures o["id"] == Str(d.id)
    ensures forall k :: k in o && k != "id" ==> o[k] == DonationRow(d)[k]
  {
    var row := DonationRow(d);
    (row - {"id"})["id" := Str(Stringify(row["id"]))]
  }
}

=== FILE: http.dfy ===
/** The response envelope and the outcomes a handler can reach. */
module Http {
  import opened Common
  import opened Json

  const OK: int := 200
  const CREATED: int := 201
  const BAD_REQUEST: int := 400
  const UNAUTHORIZED: int := 401
  const NOT_FOUND: int := 404

  /** The body every endpoint sends: `{ message, payload, status }`. */
  datatype Envelope = Envelope(message: string, payload: Value, status: int)

  /** `sendResponse({ status, message, payload = null })`. */
  function SendResponse(status: int, message: string, payload: Option<Value>): (e: Envelope)
    ensures e.status == status
    ensures e.message == message
    ensures payload.None? ==> e.payload == Null
    ensures payload.Some? ==> e.payload == payload.value
  {
    Envelope(message, payload.GetOr(Null), status)
  }

  /** The envelope as the JSON object sent on the wire. */
  function EnvelopeJson(e: Envelope): (o: Object)
    ensures o.Keys == {"message", "payload", "status"}
    ensures o["message"] == Str(e.message) && o["payload"] == e.payload && o["status"] == Num(e.status)
  {
    map["message" := Str(e.message), "payload" := e.payload, "status" := Num(e.status)]
  }

  /** `res.status(code).json(body)`. */
  datatype Reply = Reply(code: int, body: Envelope)

  /** What reaches `next(error)`: an `APIError` with its status and message,
      the request validator's error, or any other exception (a database
      error, a `TypeError`). Rendering the last two belongs to the error
      responder, which is not part of this model. */
  datatype Failure =
    | ApiError(status: int, message: string)
    | ValidationError
    | Unhandled(cause: string)

  datatype Outcome = Done(reply: Reply) | Failed(failure: Failure)

  /** A reply whose HTTP code and envelope status agree. */
  function Respond(status: int, message: string, payload: Option<Value>): Outcome {
    Done(Reply(status, SendResponse(status, message, payload)))
  }
}

=== FILE: joi.dfy ===
/** The part of the Joi schema language the request validators use, as the
    router applies it: a request segment is checked against an object schema,
    unknown keys are refused, values are converted, defaults are filled in,
    and the handler receives the validated object. */
module Joi {
  import opened Common
  import opened Json
  import Decimal
  import Text

  /** `Joi.string()` with its `min`/`max` length in UTF-16 code units,
      `email()` and `required()`;
      `Joi.number()` with `min`/`max`, `default` and `required()`;
      `Joi.date()`. */
  datatype Rule =
    | StringRule(minLength: nat, maxLength: Option<nat>, email: bool, required: bool)
    | NumberRule(min: Option<int>, max: Option<int>, default: Option<int>, required: bool)
    | DateRule

  datatype Field = Field(key: string, rule: Rule)

  /** `Joi.object().keys({ ... })`: the fields in declaration order. */
  type Schema = seq<Field>

  function Keys(schema: Schema): set<string> {
    set i | 0 <= i < |schema| :: schema[i].key
  }

  /** The keys of an object literal are distinct. */
  predicate DistinctKeys(schema: Schema) {
    forall i, j :: 0 <= i < j < |schema| ==> schema[i].key != schema[j].key
  }

  /** Conversion to a number: a number as it is, or a string of decimal
      digits read as one. */
  function AsNumber(v: Value): (r: Option<int>)
    ensures v.Num? ==> r == Some(v.n)
    ensures v.Str? ==> (r.Some? <==> v.s != "" && Decimal.AllDigits(v.s))
    ensures !v.Num? && !v.Str? ==> r.None?
  {
    match v
    case Num(n) => Some(n)
    case Str(s) => if s != "" && Decimal.AllDigits(s) then Some(Decimal.ParseDecimal(s)) else None
    case _ => None
  }

  /** `string.email()`, reduced to its shape: one `@` between a non-empty
      local part and a domain of at least two non-empty labels. */
  predicate IsEmail(s: string) {
    var halves := Text.Split(s, '@');
    |halves| == 2 && halves[0] != "" &&
    var labels := Text.Split(halves[1], '.');
    |labels| >= 2 && forall i :: 0 <= i < |labels| ==> labels[i] != ""
  }

  /** The largest distance from the epoch, in milliseconds, of a valid
      `Date`; beyond it `new Date(n)` is an invalid date, which `Joi.date()`
      refuses. */
  const MAX_DATE_MS: int := 8640000000000000

  /** `v` converts to a number that `Joi.number()` takes as safe: beyond
      `Number.MAX_SAFE_INTEGER` in either direction it is refused
      (`number.unsafe`). */
  predicate IsSafeNumber(v: Value) {
    AsNumber(v).Some? && -Decimal.MAX_SAFE_INTEGER <= AsNumber(v).value <= Decimal.MAX_SAFE_INTEGER
  }

  /** `v` converts to a timestamp of a valid `Date`. */
  predicate IsTimestamp(v: Value) {
    AsNumber(v).Some? && -MAX_DATE_MS <= AsNumber(v).value <= MAX_DATE_MS
  }

  predicate InBounds(n: int, min: Option<int>, max: Option<int>) {
    (min.None? || min.value <= n) && (max.None? || n <= max.value)
  }

  /** The check of one field given the property's value (`None` when it is
      absent): `None` when the field is refused, otherwise what the validated
      object holds under the key (`None` when it stays absent). Strings are
      never converted and the empty string is refused; numbers and dates are
      converted, an unsafe integer and an invalid date refused; an absent
      number takes its default. */
  function CheckField(rule: Rule, v: Option<Value>): Option<Option<Value>> {
    match v
    case None =>
      (match rule
       case StringRule(_, _, _, required) => if required then None else Some(None)
       case NumberRule(_, _, default, required) =>
         if required then None
         else if default.Some? then Some(Some(Num(default.value)))
         else Some(None)
       case DateRule => Some(None))
    case Some(x) =>
      (match rule
       case StringRule(minLength, maxLength, email, _) =>
         if x.Str? && x.s != "" && minLength <= Text.Utf16Length(x.s) && (maxLength.None? || Text.Utf16Length(x.s) <= maxLength.value)
            && (!email || IsEmail(x.s))
         then Some(Some(x))
         else None
       case NumberRule(min, max, _, _) =>
         if IsSafeNumber(x) && InBounds(AsNumber(x).value, min, max) then Some(Some(Num(AsNumber(x).value))) else None
       case DateRule =>
         if IsTimestamp(x) then Some(Some(Num(AsNumber(x).value))) else None)
  }

  /** Every field of `schema` accepts what `body` holds for it. */
  predicate FieldsAccept(schema: Schema, body: Object) {
    forall i :: 0 <= i < |schema| ==> CheckField(schema[i].rule, Get(body, schema[i].key)).Some?
  }

  /** The validated object built field by field. */
  function Build(schema: Schema, body: Object): (r: Option<Object>)
    requires DistinctKeys(schema)
    ensures r.Some? <==> FieldsAccept(schema, body)
    ensures r.Some? ==> r.value.Keys <= Keys(schema)
    ensures r.Some? ==> forall i :: 0 <= i < |schema| ==>
      Get(r.value, schema[i].key) == CheckField(schema[i].rule, Get(body, schema[i].key)).value
    decreases |schema|
  {
    if |schema| == 0 then Some(map[])
    else
      var f := schema[0];
      match CheckField(f.rule, Get(body, f.key))
      case None => None
      case Some(out) =>
        match Build(schema[1..], body)
        case None =>
          assert !FieldsAccept(schema[1..], body);
          None
        case Some(rest) =>
          assert f.key !in Keys(schema[1..]);
          Some(if out.Some? then rest[f.key := out.value] else rest)
  }

  /** Validating a request segment: refused when it holds a key the schema
      does not declare or when a field refuses its value; otherwise the
      object of converted and defaulted values, and nothing else. */
  function Validate(schema: Schema, body: Object): (r: Option<Object>)
    requires DistinctKeys(schema)
    ensures r.Some? <==> body.Keys <= Keys(schema) && FieldsAccept(schema, body)
    ensures r.Some? ==> r.value.Keys <= Keys(schema)
    ensures r.Some? ==> forall i :: 0 <= i < |schema| ==>
      Get(r.value, schema[i].key) == CheckField(schema[i].rule, Get(body, schema[i].key)).value
  {
    if body.Keys <= Keys(schema) then Build(schema, body) else None
  }

  /** No field fills in a default. */
  predicate NoDefaults(schema: Schema) {
    forall i :: 0 <= i < |schema| ==> !(schema[i].rule.NumberRule? && schema[i].rule.default.Some?)
  }

  /** What the validated object holds under a field's key is what the
      field makes of the segment's value there. */
  lemma ValidatedField(schema: Schema, body: Object, i: nat)
    requires DistinctKeys(schema) && Validate(schema, body).Some? && i < |schema|
    ensures Get(Validate(schema, body).value, schema[i].key) == CheckField(schema[i].rule, Get(body, schema[i].key)).value
  {
  }

  /** Without defaults the validated object has the segment's keys. */
  lemma ValidatedKeySet(schema: Schema, body: Object)
    requires DistinctKeys(schema) && NoDefaults(schema) && Validate(schema, body).Some?
    ensures Validate(schema, body).value.Keys == body.Keys
  {
    var r := Validate(schema, body).value;
    assert r.Keys <= Keys(schema) && body.Keys <= Keys(schema);
    forall k | k in Keys(schema) ensures k in r <==> k in body {
      var i :| 0 <= i < |schema| && schema[i].key == k;
      ValidatedField(schema, body, i);
      assert !(schema[i].rule.NumberRule? && schema[i].rule.default.Some?);
    }
  }

  /** Without defaults the validated object has the segment's keys, each
      holding what its field makes of the segment's value. */
  lemma ValidatedKeys(schema: Schema, body: Object)
    requires DistinctKeys(schema) && NoDefaults(schema) && Validate(schema, body).Some?
    ensures Validate(schema, body).value.Keys == body.Keys
    ensures forall i :: 0 <= i < |schema| && schema[i].key in body ==>
      CheckField(schema[i].rule, Some(body[schema[i].key])) == Some(Some(Validate(schema, body).value[schema[i].key]))
  {
    ValidatedKeySet(schema, body);
    var r := Validate(schema, body).value;
    forall i | 0 <= i < |schema| && schema[i].key in body
      ensures CheckField(schema[i].rule, Some(body[schema[i].key])) == Some(Some(r[schema[i].key]))
    {
      ValidatedField(schema, body, i);
    }
  }
}

=== FILE: json.dfy ===
/** JSON values as the controllers produce and the request bodies carry them.
    Numbers are integers only. */
module Json {
  import Decimal
  import Common

  datatype Value =
    | Null
    | Bool(b: bool)
    | Num(n: int)
    | Str(s: string)
    | Arr(items: seq<Value>)
    | Obj(fields: map<string, Value>)

  /** A plain JavaScript object: field name to value. */
  type Object = map<string, Value>

  /** JavaScript's `String(v)`. */
  function Stringify(v: Value): string
    decreases v, 1
  {
    match v
    case Null => "null"
    case Bool(b) => if b then "true" else "false"
    case Num(n) => Decimal.IntToString(n)
    case Str(s) => s
    case Obj(_) => "[object Object]"
    case Arr(items) => ItemsString(v, 0)
  }

  /** `Array.prototype.toString` from index `i` on: elements joined by commas,
      `null` elements rendered empty. */
  function ItemsString(v: Value, i: nat): string
    requires v.Arr? && i <= |v.items|
    decreases v, 0, |v.items| - i
  {
    if i == |v.items| then ""
    else
      var head := if v.items[i].Null? then "" else Stringify(v.items[i]);
      if i + 1 == |v.items| then head else head + "," + ItemsString(v, i + 1)
  }

  /** Reading a property of an object: `undefined` when absent. */
  function Get(o: Object, key: string): Common.Option<Value> {
    if key in o then Common.Some(o[key]) else Common.None
  }

  /** A nullable string column as a JSON value. */
  function OptStr(o: Common.Option<string>): Value {
    match o
    case Some(s) => Str(s)
    case None => Null
  }

  /** A nullable integer column as a JSON value. */
  function OptNum(o: Common.Option<int>): Value {
    match o
    case Some(n) => Num(n)
    case None => Null
  }
}

=== FILE: lifecycle.dfy ===
/** The service as a state machine: each request is validated, passed
    through the access-token middleware where the route is behind it, and
    handled; the invariant of the tables holds across any run. */
module Lifecycle {
  import opened Common
  import opened Json
  import opened Http
  import AuthService
  import opened UserModel
  import opened SessionModel
  import opened WalletModel
  import opened DonationModel
  import opened Database
  import AuthValidation
  import UserValidation
  import AuthController
  import UserController
  import AuthPolicy

  /** Appending an unverified account under a new id and a new email keeps
      the invariant. */
  lemma AddAccountInv(db: Db, u: User)
    requires Inv(db)
    requires !IsUserId(db, u.id) && UserByEmail(db, u.email).None? && !u.is_verified
    ensures Inv(db.(users := db.users + [u]))
  {
    var db1 := db.(users := db.users + [u]);
    assert forall j :: 0 <= j < |db.users| ==> db1.users[j] == db.users[j];
    assert db1.users[|db.users|] == u;
    forall id | IsUserId(db, id) ensures IsUserId(db1, id) {
      var j :| 0 <= j < |db.users| && db.users[j].id == id;
      assert db1.users[j].id == id;
    }
    assert !HasWallet(db, u.id);
    assert forall j :: 0 <= j < |db1.users| ==> (db1.users[j].is_verified <==> HasWallet(db1, db1.users[j].id));
  }

  /** Appending a tokenless session of an unverified account keeps the
      invariant. */
  lemma AddCodeSessionInv(db: Db, s: Session, j: nat)
    requires Inv(db)
    requires j < |db.users| && db.users[j].id == s.user_id && !db.users[j].is_verified
    requires s.access_token.None? && s.refresh_token.None?
    ensures Inv(db.(sessions := db.sessions + [s]))
  {
    var db1 := db.(sessions := db.sessions + [s]);
    assert db1.sessions[|db.sessions|] == s;
    assert forall i :: 0 <= i < |db.sessions| ==> db1.sessions[i] == db.sessions[i];
  }

  /** `signup` keeps the invariant: it appends at most an unverified account
      under a new email and a tokenless session of an unverified account. */
  lemma SignupInv(db: Db, body: AuthValidation.SignupBody, prodOrStaging: bool, generated: int, userId: string, sessionId: string)
    requires Inv(db)
    ensures Inv(AuthController.Signup(db, body, prodOrStaging, generated, userId, sessionId).db)
  {
    var found := UserByEmail(db, body.email);
    var u := AuthController.SignupAccount(db, body, userId);
    if found.None? && IsUserId(db, userId) {
      return;
    }
    var db1 := if found.Some? then db else db.(users := db.users + [u]);
    var j: nat := if found.Some? then found.value else |db.users|;
    if found.None? {
      AddAccountInv(db, u);
    }
    assert Inv(db1) && j < |db1.users| && db1.users[j] == u;
    if !u.is_verified && AuthController.SessionById(db1, u.id).None? {
      var s := NewSession(sessionId, u.id).(otp := Some(AuthController.OtpCode(prodOrStaging, generated)));
      AddCodeSessionInv(db1, s, j);
    }
  }

  /** Issued tokens carry the "Bearer " prefix. */
  lemma IssuedAreBearer(sign: AuthService.Signer, u: User, nowMs: nat)
    ensures IsBearer(Some(GetSession(u, sign, nowMs).access_token))
    ensures IsBearer(Some(GetSession(u, sign, nowMs).refresh_token))
  {
    var s := GetSession(u, sign, nowMs);
    var p := AuthService.BEARER_PREFIX;
    assert s.access_token == p + sign(AuthService.AccessRequest(u.id, u.email));
    assert s.refresh_token == p + sign(AuthService.RefreshRequest(u.id, u.email));
  }

  /** Writing issued tokens into sessions, and nothing else, keeps the
      invariant. */
  lemma RetokenInv(db: Db, r: Db)
    requires Inv(db)
    requires r.users == db.users && r.wallets == db.wallets && r.donations == db.donations
    requires |r.sessions| == |db.sessions|
    requires forall i :: 0 <= i < |db.sessions| ==>
      r.sessions[i].user_id == db.sessions[i].user_id && r.sessions[i].otp == db.sessions[i].otp &&
      IsBearer(r.sessions[i].access_token) && IsBearer(r.sessions[i].refresh_token)
    ensures Inv(r)
  {
  }

  /** `signin` keeps the invariant: it only writes issued tokens. */
  lemma SigninInv(db: Db, body: AuthValidation.SigninBody, sign: AuthService.Signer, nowMs: nat)
    requires Inv(db)
    ensures Inv(AuthController.Signin(db, body, sign, nowMs).db)
  {
    var t := AuthController.Signin(db, body, sign, nowMs);
    if t.outcome.Done? {
      var u := db.users[AuthController.VerifiedUserByEmail(db, body.email.value).value];
      var s := GetSession(u, sign, nowMs);
      IssuedAreBearer(sign, u, nowMs);
      assert t.db.sessions == AuthController.WithTokens(db.sessions, u.id, s);
      forall i | 0 <= i < |db.sessions|
        ensures t.db.sessions[i].user_id == db.sessions[i].user_id && t.db.sessions[i].otp == db.sessions[i].otp
        ensures IsBearer(t.db.sessions[i].access_token) && IsBearer(t.db.sessions[i].refresh_token)
      {
        assert IsBearer(db.sessions[i].access_token) && IsBearer(db.sessions[i].refresh_token);
      }
      RetokenInv(db, t.db);
    }
  }

  /** `r` is `db` with account `k`, which had no wallet, verified, its
      codes cleared, and its one wallet `w` opened. */
  predicate OpensWallet(db: Db, r: Db, k: nat, w: Wallet) {
    k < |db.users| && !HasWallet(db, db.users[k].id) && w.owner_id == db.users[k].id &&
    |r.users| == |db.users| &&
    (forall j :: 0 <= j < |db.users| ==> r.users[j] == if j == k then db.users[k].(is_verified := true) else db.users[j]) &&
    |r.sessions| == |db.sessions| &&
    (forall i :: 0 <= i < |db.sessions| ==>
      r.sessions[i] == if db.sessions[i].user_id == w.owner_id then db.sessions[i].(otp := None) else db.sessions[i]) &&
    r.wallets == db.wallets + [w] && r.donations == db.donations
  }

  lemma OpenWalletKeepsIds(db: Db, r: Db, k: nat, w: Wallet, id: string)
    requires OpensWallet(db, r, k, w)
    ensures IsUserId(db, id) <==> IsUserId(r, id)
  {
    if IsUserId(db, id) {
      var j :| 0 <= j < |db.users| && db.users[j].id == id;
      assert r.users[j].id == id;
    }
    if IsUserId(r, id) {
      var j :| 0 <= j < |r.users| && r.users[j].id == id;
      assert db.users[j].id == id;
    }
  }

  /** The references and keys of the tables stay valid. */
  lemma OpenWalletKeepsReferences(db: Db, r: Db, k: nat, w: Wallet)
    requires Inv(db) && OpensWallet(db, r, k, w)
    ensures UserIdsUnique(r) && EmailsUnique(r) && SessionOwnersAreUsers(r) && WalletOwnersAreUsers(r)
    ensures TokensAsIssued(r) && DonationPartiesAreUsers(r)
  {
    forall i | 0 <= i < |r.sessions| ensures IsUserId(r, r.sessions[i].user_id) {
      OpenWalletKeepsIds(db, r, k, w, db.sessions[i].user_id);
    }
    forall i | 0 <= i < |r.wallets| ensures IsUserId(r, r.wallets[i].owner_id) {
      if i < |db.wallets| {
        assert r.wallets[i] == db.wallets[i];
        OpenWalletKeepsIds(db, r, k, w, db.wallets[i].owner_id);
      } else {
        assert r.users[k].id == r.wallets[i].owner_id;
      }
    }
    forall i | 0 <= i < |r.sessions| ensures IsBearer(r.sessions[i].access_token) && IsBearer(r.sessions[i].refresh_token) {
      assert IsBearer(db.sessions[i].access_token) && IsBearer(db.sessions[i].refresh_token);
    }
    forall i | 0 <= i < |r.donations| ensures IsUserId(r, r.donations[i].sender_id) && IsUserId(r, r.donations[i].beneficiary_id) {
      OpenWalletKeepsIds(db, r, k, w, db.donations[i].sender_id);
      OpenWalletKeepsIds(db, r, k, w, db.donations[i].beneficiary_id);
    }
  }

  /** Exactly the verified accounts own a wallet, one each. */
  lemma OpenWalletKeepsWallets(db: Db, r: Db, k: nat, w: Wallet)
    requires Inv(db) && OpensWallet(db, r, k, w)
    ensures VerifiedIffWallet(r) && AtMostOneWallet(r)
  {
    assert r.wallets[|db.wallets|] == w;
    assert HasWallet(r, w.owner_id);
    forall j | 0 <= j < |r.users| ensures r.users[j].is_verified <==> HasWallet(r, r.users[j].id) {
      if j != k {
        assert db.users[j].id != w.owner_id;
        if HasWallet(r, db.users[j].id) {
          var i :| 0 <= i < |r.wallets| && r.wallets[i].owner_id == db.users[j].id;
          assert r.wallets[i] == db.wallets[i];
        }
        if HasWallet(db, db.users[j].id) {
          var i :| 0 <= i < |db.wallets| && db.wallets[i].owner_id == db.users[j].id;
          assert r.wallets[i] == db.wallets[i];
        }
      }
    }
    forall i | 0 <= i < |db.wallets| ensures r.wallets[i].owner_id != w.owner_id {
      assert r.wallets[i] == db.wallets[i];
    }
  }

  /** No verified account keeps a code. */
  lemma OpenWalletClearsCodes(db: Db, r: Db, k: nat, w: Wallet)
    requires Inv(db) && OpensWallet(db, r, k, w)
    ensures VerifiedHaveNoOtp(r)
  {
    forall i, j | 0 <= i < |r.sessions| && 0 <= j < |r.users| && r.sessions[i].user_id == r.users[j].id && r.users[j].is_verified
      ensures r.sessions[i].otp.None?
    {
      if j != k {
        assert db.sessions[i].user_id == db.users[j].id;
      }
    }
  }

  /** Verifying account `k`, which had no wallet, and opening its one
      wallet keeps the invariant. */
  lemma OpenWalletInv(db: Db, r: Db, k: nat, w: Wallet)
    requires Inv(db) && OpensWallet(db, r, k, w)
    ensures Inv(r)
  {
    OpenWalletKeepsReferences(db, r, k, w);
    OpenWalletKeepsWallets(db, r, k, w);
    OpenWalletClearsCodes(db, r, k, w);
  }

  /** `verifyOtp` keeps the invariant when the wallet's key is fresh: the
      account holding the code is unverified, so it had no wallet, and it
      gets exactly one. */
  lemma VerifyOtpInv(db: Db, body: AuthValidation.VerifyOtpBody, walletId: string, draw: real)
    requires Inv(db) && 0.0 <= draw < 1.0 && !IsWalletId(db, walletId)
    ensures Inv(AuthController.VerifyOtp(db, body, walletId, draw).db)
  {
    var found := UserByEmail(db, body.email);
    if found.None? {
      return;
    }
    var k := found.value;
    var u := db.users[k];
    var o := AuthController.OtpSession(db, u.id, body.otp);
    if o.None? {
      return;
    }
    assert !u.is_verified by {
      assert db.sessions[o.value].otp.Some?;
    }
    var r := AuthController.OpenAccount(db, u, walletId, draw);
    forall j | 0 <= j < |db.users|
      ensures r.users[j] == if j == k then u.(is_verified := true) else db.users[j]
    {
      if j != k {
        assert db.users[j].email != u.email;
      }
    }
    assert OpensWallet(db, r, k, NewWallet(walletId, u.id, draw)) by {
      assert !HasWallet(db, u.id);
    }
    OpenWalletInv(db, r, k, NewWallet(walletId, u.id, draw));
  }

  /** `createPin` keeps the invariant: it writes only the pin. */
  lemma CreatePinInv(db: Db, pathId: string, pin: Option<int>)
    requires Inv(db)
    ensures Inv(UserController.CreatePin(db, pathId, pin).db)
  {
    var r := UserController.CreatePin(db, pathId, pin).db;
    if r != db {
      assert forall j :: 0 <= j < |db.users| ==> r.users[j] == db.users[j].(account_pin := r.users[j].account_pin);
      forall id | IsUserId(db, id) ensures IsUserId(r, id) {
        var j :| 0 <= j < |db.users| && db.users[j].id == id;
        assert r.users[j].id == id;
      }
    }
  }

  /** Recording a donation between two accounts and rewriting only
      balances keeps the invariant. */
  lemma RecordDonationInv(db: Db, r: Db, d: Donation)
    requires Inv(db) && IsUserId(db, d.sender_id) && IsUserId(db, d.beneficiary_id)
    requires r.users == db.users && r.sessions == db.sessions && r.donations == db.donations + [d]
    requires |r.wallets| == |db.wallets|
    requires forall i :: 0 <= i < |db.wallets| ==> r.wallets[i] == db.wallets[i].(wallet_balance := r.wallets[i].wallet_balance)
    ensures Inv(r)
  {
    assert forall i :: 0 <= i < |db.wallets| ==> r.wallets[i].owner_id == db.wallets[i].owner_id;
    assert VerifiedIffWallet(r) by {
      forall j | 0 <= j < |r.users| ensures r.users[j].is_verified <==> HasWallet(r, r.users[j].id) {
        if HasWallet(r, r.users[j].id) {
          var i :| 0 <= i < |r.wallets| && r.wallets[i].owner_id == r.users[j].id;
          assert db.wallets[i].owner_id == r.users[j].id;
        }
        if HasWallet(db, r.users[j].id) {
          var i :| 0 <= i < |db.wallets| && db.wallets[i].owner_id == r.users[j].id;
          assert r.wallets[i].owner_id == r.users[j].id;
        }
      }
    }
    assert DonationPartiesAreUsers(r) by {
      assert r.donations[|db.donations|] == d;
      assert forall i :: 0 <= i < |db.donations| ==> r.donations[i] == db.donations[i];
    }
  }

  /** `donate` keeps the invariant: both parties are accounts, and only a
      balance changes. */
  lemma DonateInv(db: Db, caller: string, pathId: string, body: UserValidation.DonateBody, donationId: string, draw: string, loadDate: int)
    requires Inv(db)
    ensures Inv(UserController.Donate(db, caller, pathId, body, donationId, draw, loadDate).db)
  {
    var t := UserController.Donate(db, caller, pathId, body, donationId, draw, loadDate);
    if t.outcome.Done? {
      var k := UserController.SenderWithPin(db, caller, body.pin.value).value;
      var b := UserById(db, pathId).value;
      var wallet := db.wallets[UserController.WalletOf(db, body.wallet_number.value, db.users[b].id).value];
      var d := NewDonation(donationId, caller, db.users[b].id, loadDate, draw).(amount_donated := body.amount_donated);
      assert IsUserId(db, db.users[k].id) && IsUserId(db, db.users[b].id);
      assert t.db.donations == db.donations + [d];
      assert t.db.wallets == UserController.WithBalance(db.wallets, wallet.id, body.amount_donated);
      RecordDonationInv(db, t.db, d);
    }
  }

  /** What the service is started with: whether it runs in production or
      staging, the donation date default computed when the model loaded,
      and the token library under the two secrets. */
  datatype Env = Env(prodOrStaging: bool, loadDate: int, sign: AuthService.Signer, verifyAccess: AuthService.Verifier)

  /** What the middleware's two `findOne` calls return. Their filters sit
      outside `where`, so the rows found are not tied to the token. */
  datatype Lookup = Lookup(user: Option<User>, session: Option<Session>)

  /** A request with what the handler draws from outside: the fresh primary
      keys, the generated code, the clock and the random draws. */
  datatype Request =
    | SignupRequest(body: Object, generated: int, userId: string, sessionId: string)
    | SigninRequest(body: Object, nowMs: nat)
    | VerifyRequest(body: Object, walletId: string, walletDraw: real)
    | PinRequest(header: Option<string>, lookup: Lookup, pathId: string, body: Object)
    | DonateRequest(header: Option<string>, lookup: Lookup, pathId: string, body: Object, donationId: string, txnDraw: string)
    | DonationsRequest(header: Option<string>, lookup: Lookup, query: Object)
    | DonationRequest(header: Option<string>, lookup: Lookup, pathId: string)
    | ByDateRequest(header: Option<string>, lookup: Lookup, query: Object)
  {
    /** The routes mounted after the access-token middleware. */
    predicate IsUserRoute() {
      !(SignupRequest? || SigninRequest? || VerifyRequest?)
    }

    /** The routes that never write. */
    predicate IsRead() {
      DonationsRequest? || DonationRequest? || ByDateRequest?
    }
  }

  /** A path segment matched by `:id` is never empty, and a uniform draw
      lies in [0, 1). */
  predicate WellFormed(req: Request) {
    (req.VerifyRequest? ==> 0.0 <= req.walletDraw < 1.0) &&
    ((req.PinRequest? || req.DonateRequest? || req.DonationRequest?) ==> req.pathId != "")
  }

  /** The authentication routes: the body is validated, then handled. */
  function AuthStep(env: Env, db: Db, req: Request): (t: Transition)
    requires WellFormed(req) && !req.IsUserRoute()
    ensures t.outcome == Failed(ValidationError) ==> t.db == db
    ensures req.SignupRequest? ==> (t.outcome == Failed(ValidationError) <==> AuthValidation.ParseSignup(req.body).None?)
    ensures req.SigninRequest? ==> (t.outcome == Failed(ValidationError) <==> AuthValidation.ParseSignin(req.body).None?)
    ensures req.VerifyRequest? ==> (t.outcome == Failed(ValidationError) <==> AuthValidation.ParseVerifyOtp(req.body).None?)
  {
    match req
    case SignupRequest(body, generated, userId, sessionId) =>
      (match AuthValidation.ParseSignup(body)
       case None => Transition(Failed(ValidationError), db)
       case Some(b) => AuthController.Signup(db, b, env.prodOrStaging, generated, userId, sessionId))
    case SigninRequest(body, nowMs) =>
      (match AuthValidation.ParseSignin(body)
       case None => Transition(Failed(ValidationError), db)
       case Some(b) => AuthController.Signin(db, b, env.sign, nowMs))
    case VerifyRequest(body, walletId, walletDraw) =>
      (match AuthValidation.ParseVerifyOtp(body)
       case None => Transition(Failed(ValidationError), db)
       case Some(b) => AuthController.VerifyOtp(db, b, walletId, walletDraw))
  }

  /** The user routes for an authenticated `caller`: the path id passes its
      schema (it is never empty), the body or query is validated, then
      handled. */
  function UserStep(env: Env, db: Db, caller: string, req: Request): (t: Transition)
    requires WellFormed(req) && req.IsUserRoute()
    ensures req.IsRead() ==> t.db == db
    ensures t.outcome == Failed(ValidationError) ==> t.db == db
    ensures req.PinRequest? ==> (t.outcome == Failed(ValidationError) <==> UserValidation.ParseCreatePin(req.body).None?)
    ensures req.DonateRequest? ==> (t.outcome == Failed(ValidationError) <==> UserValidation.ParseDonate(req.body).None?)
    ensures req.DonationsRequest? ==> (t.outcome == Failed(ValidationError) <==> UserValidation.ParsePageQuery(req.query).None?)
    ensures req.DonationRequest? ==> t.outcome != Failed(ValidationError)
    ensures req.ByDateRequest? ==> (t.outcome == Failed(ValidationError) <==> UserValidation.ParseDateQuery(req.query).None?)
  {
    match req
    case PinRequest(_, _, pathId, body) =>
      (match UserValidation.ParseCreatePin(body)
       case None => Transition(Failed(ValidationError), db)
       case Some(pin) => UserController.CreatePin(db, pathId, pin))
    case DonateRequest(_, _, pathId, body, donationId, txnDraw) =>
      (match UserValidation.ParseDonate(body)
       case None => Transition(Failed(ValidationError), db)
       case Some(b) => UserController.Donate(db, caller, pathId, b, donationId, txnDraw, env.loadDate))
    case DonationsRequest(_, _, query) =>
      (match UserValidation.ParsePageQuery(query)
       case None => Transition(Failed(ValidationError), db)
       case Some(_) => Transition(UserController.GetDonations(db, caller), db))
    case DonationRequest(_, _, pathId) =>
      Transition(UserController.GetDonation(db, caller, pathId), db)
    case ByDateRequest(_, _, query) =>
      (match UserValidation.ParseDateQuery(query)
       case None => Transition(Failed(ValidationError), db)
       case Some(q) => Transition(UserController.GetDonationsByDate(db, q), db))
  }

  /** The middleware's verdict on a user route. */
  function Gate(env: Env, req: Request): AuthPolicy.Gate
    requires req.IsUserRoute()
  {
    AuthPolicy.HasAccessToken(req.header, env.verifyAccess, req.lookup.user, req.lookup.session)
  }

  /** One request against the tables. A user route the middleware refuses
      gets its 401 reply and writes nothing; one it lets through is handled
      for the `id` of the session context. */
  function Step(env: Env, db: Db, req: Request): (t: Transition)
    requires WellFormed(req)
    ensures req.IsRead() ==> t.db == db
    ensures req.IsUserRoute() && Gate(env, req).Deny? ==> t == Transition(Done(Gate(env, req).reply), db)
    ensures req.IsUserRoute() && Gate(env, req).Deny? ==> t.outcome.reply.code == UNAUTHORIZED
  {
    if !req.IsUserRoute() then AuthStep(env, db, req)
    else
      match Gate(env, req)
      case Deny(reply) => Transition(Done(reply), db)
      case Pass(context) => UserStep(env, db, context.fields["id"].s, req)
  }

  /** The handler of a user route acts for the account the middleware
      looked up, whatever the token's claims name. */
  lemma CallerIsLookedUpUser(env: Env, db: Db, req: Request)
    requires WellFormed(req) && req.IsUserRoute() && Gate(env, req).Pass?
    ensures req.lookup.user.Some?
    ensures Step(env, db, req) == UserStep(env, db, req.lookup.user.value.id, req)
  {
  }

  /** The wallet key of a `verifyOtp` request is not yet taken. */
  predicate FreshKeys(db: Db, req: Request) {
    req.VerifyRequest? ==> !IsWalletId(db, req.walletId)
  }

  /** An authentication route keeps the invariant. */
  lemma AuthStepInv(env: Env, db: Db, req: Request)
    requires Inv(db) && WellFormed(req) && FreshKeys(db, req) && !req.IsUserRoute()
    ensures Inv(AuthStep(env, db, req).db)
  {
    match req
    case SignupRequest(body, generated, userId, sessionId) =>
      var b := AuthValidation.ParseSignup(body);
      if b.Some? { SignupInv(db, b.value, env.prodOrStaging, generated, userId, sessionId); }
    case SigninRequest(body, nowMs) =>
      var b := AuthValidation.ParseSignin(body);
      if b.Some? { SigninInv(db, b.value, env.sign, nowMs); }
    case VerifyRequest(body, walletId, walletDraw) =>
      var b := AuthValidation.ParseVerifyOtp(body);
      if b.Some? { VerifyOtpInv(db, b.value, walletId, walletDraw); }
  }

  /** A user route keeps the invariant, whoever the caller. */
  lemma UserStepInv(env: Env, db: Db, caller: string, req: Request)
    requires Inv(db) && WellFormed(req) && req.IsUserRoute()
    ensures Inv(UserStep(env, db, caller, req).db)
  {
    match req
    case PinRequest(_, _, pathId, body) =>
      var pin := UserValidation.ParseCreatePin(body);
      if pin.Some? { CreatePinInv(db, pathId, pin.value); }
    case DonateRequest(_, _, pathId, body, donationId, txnDraw) =>
      var b := UserValidation.ParseDonate(body);
      if b.Some? { DonateInv(db, caller, pathId, b.value, donationId, txnDraw, env.loadDate); }
    case DonationsRequest(_, _, _) =>
    case DonationRequest(_, _, _) =>
    case ByDateRequest(_, _, _) =>
  }

  /** One step keeps the invariant. */
  lemma StepInv(env: Env, db: Db, req: Request)
    requires Inv(db) && WellFormed(req) && FreshKeys(db, req)
    ensures Inv(Step(env, db, req).db)
  {
    if !req.IsUserRoute() {
      AuthStepInv(env, db, req);
    } else if Gate(env, req).Pass? {
      UserStepInv(env, db, Gate(env, req).context.fields["id"].s, req);
    }
  }

  predicate AllWellFormed(reqs: seq<Request>) {
    forall i :: 0 <= i < |reqs| ==> WellFormed(reqs[i])
  }

  /** The tables after the requests, served one at a time in order. */
  function Run(env: Env, db: Db, reqs: seq<Request>): Db
    requires AllWellFormed(reqs)
    decreases |reqs|
  {
    if |reqs| == 0 then db else Run(env, Step(env, db, reqs[0]).db, reqs[1..])
  }

  /** Every wallet key is fresh when its request is served (a v4 UUID in
      the source). */
  predicate RunFresh(env: Env, db: Db, reqs: seq<Request>)
    requires AllWellFormed(reqs)
    decreases |reqs|
  {
    |reqs| == 0 || (FreshKeys(db, reqs[0]) && RunFresh(env, Step(env, db, reqs[0]).db, reqs[1..]))
  }

  /** Any run keeps the invariant. */
  lemma {:induction false} RunInv(env: Env, db: Db, reqs: seq<Request>)
    requires Inv(db) && AllWellFormed(reqs) && RunFresh(env, db, reqs)
    ensures Inv(Run(env, db, reqs))
    decreases |reqs|
  {
    if |reqs| > 0 {
      StepInv(env, db, reqs[0]);
      assert AllWellFormed(reqs[1..]) by {
        assert forall i :: 0 <= i < |reqs[1..]| ==> reqs[1..][i] == reqs[i + 1];
      }
      RunInv(env, Step(env, db, reqs[0]).db, reqs[1..]);
    }
  }

  /** Every table state the service reaches from empty tables satisfies the
      invariant. */
  lemma ReachableInv(env: Env, reqs: seq<Request>)
    requires AllWellFormed(reqs) && RunFresh(env, EMPTY, reqs)
    ensures Inv(Run(env, EMPTY, reqs))
  {
    EmptyInv();
    RunInv(env, EMPTY, reqs);
  }

  /** Every donation carries the date `loadDate`. */
  predicate DatedAt(db: Db, loadDate: int) {
    forall i :: 0 <= i < |db.donations| ==> db.donations[i].date == loadDate
  }

  /** `donate` adds one donation, dated with the default fixed when the
      model loaded. */
  lemma DonateKeepsDates(db: Db, caller: string, pathId: string, body: UserValidation.DonateBody, donationId: string, draw: string, loadDate: int)
    requires DatedAt(db, loadDate)
    ensures DatedAt(UserController.Donate(db, caller, pathId, body, donationId, draw, loadDate).db, loadDate)
  {
    var t := UserController.Donate(db, caller, pathId, body, donationId, draw, loadDate);
    if t.outcome.Done? {
      var beneficiary := db.users[UserById(db, pathId).value];
      var d := NewDonation(donationId, caller, beneficiary.id, loadDate, draw).(amount_donated := body.amount_donated);
      assert t.db.donations == db.donations + [d];
      assert t.db.donations[|db.donations|] == d;
      assert forall i :: 0 <= i < |db.donations| ==> t.db.donations[i] == db.donations[i];
    }
  }

  /** Only `donate` adds donations. */
  lemma StepKeepsDates(env: Env, db: Db, req: Request)
    requires WellFormed(req) && DatedAt(db, env.loadDate)
    ensures DatedAt(Step(env, db, req).db, env.loadDate)
  {
    match req
    case DonateRequest(_, _, pathId, body, donationId, txnDraw) =>
      var b := UserValidation.ParseDonate(body);
      var g := Gate(env, req);
      if b.Some? && g.Pass? {
        DonateKeepsDates(db, g.context.fields["id"].s, pathId, b.value, donationId, txnDraw, env.loadDate);
      }
    case _ =>
      assert Step(env, db, req).db.donations == db.donations;
  }

  /** Over any run, every donation carries the same date. */
  lemma {:induction false} RunKeepsDates(env: Env, db: Db, reqs: seq<Request>)
    requires AllWellFormed(reqs) && DatedAt(db, env.loadDate)
    ensures DatedAt(Run(env, db, reqs), env.loadDate)
    decreases |reqs|
  {
    if |reqs| > 0 {
      StepKeepsDates(env, db, reqs[0]);
      assert AllWellFormed(reqs[1..]) by {
        assert forall i :: 0 <= i < |reqs[1..]| ==> reqs[1..][i] == reqs[i + 1];
      }
      RunKeepsDates(env, Step(env, db, reqs[0]).db, reqs[1..]);
    }
  }

  /** With one date on every donation, a by-date query returns either every
      donation of every account or 404. */
  lemma ByDateAllOrNothing(db: Db, loadDate: int, q: UserValidation.DateQuery)
    requires DatedAt(db, loadDate)
    ensures var o := UserController.GetDonationsByDate(db, q);
      if |db.donations| > 0 && q.startDate.Some? && q.endDate.Some? && q.startDate.value <= loadDate <= q.endDate.value
      then o == Respond(OK, UserController.LISTED_OK, Some(Arr(UserController.Rows(db.donations))))
      else o == Failed(ApiError(NOT_FOUND, UserController.NO_DONATION))
  {
    if q.startDate.Some? && q.endDate.Some? && q.startDate.value <= loadDate <= q.endDate.value {
      assert forall i :: 0 <= i < |db.donations| ==> UserController.InDateRange(db.donations[i], q);
    } else if |db.donations| > 0 {
      assert !UserController.InDateRange(db.donations[0], q);
    }
  }

  /** Signing up twice with one email adds at most one account, and none
      when the email was already registered. */
  lemma SignupTwiceAddsOneAccount(db: Db, first: AuthValidation.SignupBody, second: AuthValidation.SignupBody,
                                  prodOrStaging: bool, generated1: int, generated2: int,
                                  userId1: string, userId2: string, sessionId1: string, sessionId2: string)
    requires first.email == second.email
    ensures var t1 := AuthController.Signup(db, first, prodOrStaging, generated1, userId1, sessionId1);
      var t2 := AuthController.Signup(t1.db, second, prodOrStaging, generated2, userId2, sessionId2);
      |t2.db.users| <= |db.users| + 1 &&
      (UserByEmail(db, first.email).Some? ==> t2.db.users == db.users)
  {
    var t1 := AuthController.Signup(db, first, prodOrStaging, generated1, userId1, sessionId1);
    if |t1.db.users| > |db.users| {
      var u := AuthController.SignupAccount(db, first, userId1);
      assert t1.db.users == db.users + [u];
      UserByEmailAppend(db, u);
    }
  }

  /** No session in the tables can be refreshed: its refresh token, if any,
      is stored with the "Bearer " prefix, and the verifier refuses a
      prefixed string. */
  lemma StoredSessionsNeverRefresh(db: Db, i: nat, bodyToken: Option<string>, verify: AuthService.Verifier, userFound: Option<User>)
    requires Inv(db) && i < |db.sessions|
    requires forall t :: |t| >= |AuthService.BEARER_PREFIX| && t[..|AuthService.BEARER_PREFIX|] == AuthService.BEARER_PREFIX ==>
      !verify(t).Verified?
    ensures AuthPolicy.HasRefreshToken(bodyToken, verify, userFound, Some(db.sessions[i])).Deny?
  {
    var s := db.sessions[i];
    if s.refresh_token.Some? {
      var p := AuthService.BEARER_PREFIX;
      assert IsBearer(s.refresh_token);
      var compact := s.refresh_token.value[|p|..];
      assert s.refresh_token.value == p + compact;
      AuthPolicy.StoredRefreshTokenNeverPasses(bodyToken, verify, userFound, s, compact);
    }
  }
}

=== FILE: session_model.dfy ===
/** The session record. A session belongs to one user through `user_id`,
    which is not unique: several sessions of one user can coexist. */
module SessionModel {
  import opened Common
  import opened Json

  datatype Session = Session(
    id: string,
    otp: Option<int>,
    user_id: string,
    access_token: Option<string>,
    refresh_token: Option<string>)

  /** A row as `create({ user_id })` builds it: `otp` and both tokens take
      their null defaults. */
  function NewSession(id: string, user_id: string): Session {
    Session(id, None, user_id, None, None)
  }

  /** The model has no `toJSON` of its own, so it renders every column. */
  function SessionToJson(s: Session): (o: Object)
    ensures o.Keys == {"id", "otp", "user_id", "access_token", "refresh_token"}
    ensures o["id"] == Str(s.id) && o["user_id"] == Str(s.user_id)
    ensures o["otp"].Null? <==> s.otp.None?
    ensures o["access_token"].Null? <==> s.access_token.None?
    ensures o["refresh_token"].Null? <==> s.refresh_token.None?
    ensures s.otp.Some? ==> o["otp"] == Num(s.otp.value)
    ensures s.access_token.Some? ==> o["access_token"] == Str(s.access_token.value)
    ensures s.refresh_token.Some? ==> o["refresh_token"] == Str(s.refresh_token.value)
  {
    map[
      "id" := Str(s.id),
      "otp" := OptNum(s.otp),
      "user_id" := Str(s.user_id),
      "access_token" := OptStr(s.access_token),
      "refresh_token" := OptStr(s.refresh_token)]
  }
}

=== FILE: tables.dfy ===
/** The three table operations the controllers issue, over a table held as a
    sequence of rows in insertion order: `findOne` returns the first matching
    row, `findAll` every matching row in order, and a bulk `update` rewrites
    every matching row. */
module Tables {
  import opened Common

  /** `findOne({ where })`: the index of the first row satisfying `p`. */
  function FirstIndex<T>(rows: seq<T>, p: T -> bool): (r: Option<nat>)
    ensures r.Some? ==> r.value < |rows| && p(rows[r.value])
    ensures r.Some? ==> forall j :: 0 <= j < r.value ==> !p(rows[j])
    ensures r.None? <==> forall j :: 0 <= j < |rows| ==> !p(rows[j])
  {
    if |rows| == 0 then None
    else if p(rows[0]) then Some(0)
    else
      match FirstIndex(rows[1..], p)
      case None => None
      case Some(i) => Some(i + 1)
  }

  /** `findAll({ where })`: the rows satisfying `p`, each as often as it occurs. */
  function Filter<T(==,!new)>(rows: seq<T>, p: T -> bool): (r: seq<T>)
    ensures |r| <= |rows|
    ensures forall i :: 0 <= i < |r| ==> p(r[i])
    ensures forall x :: multiset(r)[x] == if p(x) then multiset(rows)[x] else 0
    ensures forall x :: x in r <==> x in rows && p(x)
  {
    if |rows| == 0 then []
    else
      assert rows == [rows[0]] + rows[1..];
      (if p(rows[0]) then [rows[0]] else []) + Filter(rows[1..], p)
  }

  /** `update(values, { where })`: every row satisfying `p` rewritten by `f`. */
  function UpdateWhere<T>(rows: seq<T>, p: T -> bool, f: T -> T): (r: seq<T>)
    ensures |r| == |rows|
    ensures forall i :: 0 <= i < |rows| ==> r[i] == if p(rows[i]) then f(rows[i]) else rows[i]
  {
    seq(|rows|, i requires 0 <= i < |rows| => if p(rows[i]) then f(rows[i]) else rows[i])
  }

  /** When every row satisfies `p`, `findAll` returns the whole table in
      its order. */
  lemma {:induction false} FilterAll<T(!new)>(rows: seq<T>, p: T -> bool)
    ensures (forall i :: 0 <= i < |rows| ==> p(rows[i])) ==> Filter(rows, p) == rows
  {
    if |rows| > 0 && forall i :: 0 <= i < |rows| ==> p(rows[i]) {
      var tail := rows[1..];
      forall i | 0 <= i < |tail| ensures p(tail[i]) {
        assert tail[i] == rows[i + 1];
      }
      FilterAll(tail, p);
      assert p(rows[0]);
      assert rows == [rows[0]] + tail;
    }
  }
}

=== FILE: text.dfy ===
/** String helpers: JavaScript's `s.split(c)` on a one-character separator,
    its inverse `join`, and ASCII `toLowerCase`. */
module Text {

  /** `s.split(sep)`: the pieces between separators; always at least one. */
  function Split(s: string, sep: char): (parts: seq<string>)
    ensures |parts| >= 1
    ensures forall i :: 0 <= i < |parts| ==> sep !in parts[i]
    decreases |s|
  {
    if |s| == 0 then [""]
    else
      var rest := Split(s[1..], sep);
      if s[0] == sep then [""] + rest
      else [[s[0]] + rest[0]] + rest[1..]
  }

  /** `parts.join(sep)`. */
  function Join(parts: seq<string>, sep: char): string
    requires |parts| >= 1
  {
    if |parts| == 1 then parts[0] else parts[0] + [sep] + Join(parts[1..], sep)
  }

  /** Joining the pieces of a split gives back the original string. */
  lemma {:induction false} JoinSplit(s: string, sep: char)
    ensures Join(Split(s, sep), sep) == s
    decreases |s|
  {
    if |s| > 0 {
      var rest := Split(s[1..], sep);
      JoinSplit(s[1..], sep);
      if s[0] == sep {
        assert Split(s, sep)[1..] == rest;
      } else {
        var parts := Split(s, sep);
        if |rest| == 1 {
          assert parts == [[s[0]] + rest[0]];
        } else {
          assert parts[1..] == rest[1..];
          assert Join(rest, sep) == rest[0] + [sep] + Join(rest[1..], sep);
        }
      }
    }
  }

  /** A string without the separator splits into itself alone. */
  lemma {:induction false} SplitWithoutSep(a: string, sep: char)
    requires sep !in a
    ensures Split(a, sep) == [a]
    decreases |a|
  {
    if |a| > 0 {
      SplitWithoutSep(a[1..], sep);
      assert [a[0]] + a[1..] == a;
    }
  }

  /** A separator-free head followed by a separator splits off as one piece. */
  lemma {:induction false} SplitHead(a: string, sep: char, b: string)
    requires sep !in a
    ensures Split(a + [sep] + b, sep) == [a] + Split(b, sep)
    decreases |a|
  {
    var s := a + [sep] + b;
    if |a| == 0 {
      assert s[0] == sep && s[1..] == b;
    } else {
      assert s[0] == a[0];
      assert s[1..] == a[1..] + [sep] + b;
      SplitHead(a[1..], sep, b);
      assert [a[0]] + a[1..] == a;
    }
  }

  /** Splitting a join of separator-free pieces gives back the pieces. */
  lemma {:induction false} SplitJoin(parts: seq<string>, sep: char)
    requires |parts| >= 1
    requires forall i :: 0 <= i < |parts| ==> sep !in parts[i]
    ensures Split(Join(parts, sep), sep) == parts
    decreases |parts|
  {
    if |parts| == 1 {
      SplitWithoutSep(parts[0], sep);
    } else {
      SplitJoin(parts[1..], sep);
      SplitHead(parts[0], sep, Join(parts[1..], sep));
      assert parts == [parts[0]] + parts[1..];
    }
  }

  /** The first piece of a split is a separator-free prefix that ends at the
      end of the string or just before a separator. */
  lemma {:induction false} SplitFirst(s: string, sep: char)
    ensures var p := Split(s, sep)[0];
      |p| <= |s| && s[..|p|] == p && (|p| == |s| || s[|p|] == sep)
    ensures |Split(s, sep)| >= 2 <==> |Split(s, sep)[0]| < |s|
    ensures |Split(s, sep)| >= 2 ==> Split(s, sep)[1..] == Split(s[|Split(s, sep)[0]| + 1..], sep)
    decreases |s|
  {
    if |s| > 0 && s[0] != sep {
      SplitFirst(s[1..], sep);
      var rest := Split(s[1..], sep);
      assert Split(s, sep)[0] == [s[0]] + rest[0];
      if |rest| >= 2 {
        assert s[1..][|rest[0]| + 1..] == s[|rest[0]| + 2..];
      }
    }
  }

  /** A separator-free prefix ending at the end or at a separator is the
      first piece. */
  lemma FirstPieceUnique(s: string, sep: char, m: nat)
    requires m <= |s| && sep !in s[..m] && (m == |s| || s[m] == sep)
    ensures Split(s, sep)[0] == s[..m]
  {
    SplitFirst(s, sep);
    var p0 := Split(s, sep)[0];
    assert forall i :: 0 <= i < m ==> s[i] != sep by {
      forall i | 0 <= i < m ensures s[i] != sep {
        assert s[i] == s[..m][i];
      }
    }
    assert forall i :: 0 <= i < |p0| ==> s[i] != sep by {
      forall i | 0 <= i < |p0| ensures s[i] != sep {
        assert s[i] == p0[i];
      }
    }
    assert |p0| == m;
  }

  /** `s.length` in JavaScript: the number of UTF-16 code units, two for a
      character outside the Basic Multilingual Plane and one for any other. */
  function Utf16Length(s: string): (n: nat)
    ensures |s| <= n <= 2 * |s|
    ensures (forall i :: 0 <= i < |s| ==> s[i] as int <= 0xFFFF) ==> n == |s|
    decreases |s|
  {
    if s == [] then 0
    else (if s[0] as int > 0xFFFF then 2 else 1) + Utf16Length(s[1..])
  }

  function ToLowerChar(c: char): (d: char) {
    if 'A' <= c <= 'Z' then (c as int + 32) as char else c
  }

  /** `s.toLowerCase()` on ASCII text. */
  function ToLower(s: string): (r: string)
    ensures |r| == |s|
    ensures forall i :: 0 <= i < |s| ==> r[i] == ToLowerChar(s[i])
  {
    seq(|s|, i requires 0 <= i < |s| => ToLowerChar(s[i]))
  }
}

=== FILE: txn_id.dfy ===
/** Transaction ids: "txn-" followed by a lower-cased 16-character draw from
    the 52 ASCII letters. The draw itself comes from a random source and is
    a parameter. */
module TxnId {
  import Text

  const UPPER: string := "ABCDEFGHIJKLMNOPQRSTUVWXYZ"
  const LOWER: string := "abcdefghijklmnopqrstuvwxyz"
  /** The 52 letters the draw is taken from, capitals first. */
  const CHARACTERS: string := UPPER + LOWER
  const PREFIX: string := "txn-"
  const DRAW_LENGTH: nat := 16

  /** What `cryptoRandomString({ length: 16, characters })` can return. */
  predicate IsDraw(draw: string) {
    |draw| == DRAW_LENGTH && forall i :: 0 <= i < |draw| ==> draw[i] in CHARACTERS
  }

  /** The shape every generated id has. */
  predicate IsTxnId(id: string) {
    |id| == |PREFIX| + DRAW_LENGTH && id[..|PREFIX|] == PREFIX
    && forall i :: |PREFIX| <= i < |id| ==> 'a' <= id[i] <= 'z'
  }

  /** `generateTxnId()` once the draw is known. */
  function GenerateTxnId(draw: string): (id: string)
    ensures |id| == |PREFIX| + |draw|
    ensures id[..|PREFIX|] == PREFIX
    ensures forall i :: 0 <= i < |draw| ==> id[|PREFIX| + i] == Text.ToLowerChar(draw[i])
  {
    PREFIX + Text.ToLower(draw)
  }

  predicate IsAsciiLetter(c: char) {
    'A' <= c <= 'Z' || 'a' <= c <= 'z'
  }

  /** The alphabet holds ASCII letters only. */
  lemma AlphabetLetters(k: int)
    requires 0 <= k < |CHARACTERS|
    ensures IsAsciiLetter(CHARACTERS[k])
  {
    if k < |UPPER| {
      assert CHARACTERS[k] == UPPER[k];
    } else {
      assert CHARACTERS[k] == LOWER[k - |UPPER|];
    }
  }

  /** Every character of the alphabet lower-cases to a letter a-z. */
  lemma LetterCase(c: char)
    requires c in CHARACTERS
    ensures 'a' <= Text.ToLowerChar(c) <= 'z'
  {
    var k :| 0 <= k < |CHARACTERS| && CHARACTERS[k] == c;
    AlphabetLetters(k);
  }

  /** Every id made from a genuine draw is 20 characters: the prefix and 16
      lower-case letters. */
  lemma GeneratedIdShape(draw: string)
    requires IsDraw(draw)
    ensures IsTxnId(GenerateTxnId(draw))
  {
    var id := GenerateTxnId(draw);
    forall i | |PREFIX| <= i < |id| ensures 'a' <= id[i] <= 'z' {
      LetterCase(draw[i - |PREFIX|]);
    }
  }

  /** Lower-casing collapses a draw and its lower-case copy to one id, so
      only 26^16 of the 52^16 draws give distinct ids. */
  lemma CaseCollapses(draw: string)
    ensures GenerateTxnId(draw) == GenerateTxnId(Text.ToLower(draw))
  {
    assert Text.ToLower(Text.ToLower(draw)) == Text.ToLower(draw);
  }

  /** A concrete collision: two different draws, one id. */
  lemma DistinctDrawsSameId()
    ensures "AAAAAAAAAAAAAAAA" != "aaaaaaaaaaaaaaaa"
    ensures GenerateTxnId("AAAAAAAAAAAAAAAA") == GenerateTxnId("aaaaaaaaaaaaaaaa")
  {
    CaseCollapses("AAAAAAAAAAAAAAAA");
    assert Text.ToLower("AAAAAAAAAAAAAAAA") == "aaaaaaaaaaaaaaaa";
  }
}

=== FILE: user_controller.dfy ===
/** The user handlers, all behind the access-token middleware: setting an
    account pin, donating to another account's wallet, and listing the
    caller's donations. `caller` is the `id` of the session context. */
module UserController {
  import opened Common
  import opened Json
  import opened Http
  import opened Tables
  import TxnId
  import opened UserModel
  import opened WalletModel
  import opened DonationModel
  import opened Database
  import opened UserValidation

  const NO_ACCOUNT: string := "Account not found"
  const PIN_OK: string := "pin created successfully"
  const NO_WALLET: string := "Wallet not found"
  const DONATED_OK: string := "Donated successfully"
  const NO_DONATIONS: string := "Donations not found"
  const NO_DONATION: string := "Donation not found"
  const LISTED_OK: string := "success"

  /** The rows of `users` with the given id carrying the pin. */
  function WithPin(users: seq<User>, id: string, pin: int): (r: seq<User>)
    ensures |r| == |users|
    ensures forall j :: 0 <= j < |users| && users[j].id == id ==> r[j] == users[j].(account_pin := Some(pin))
    ensures forall j :: 0 <= j < |users| && users[j].id != id ==> r[j] == users[j]
  {
    UpdateWhere(users, (u: User) => u.id == id, (u: User) => u.(account_pin := Some(pin)))
  }

  /** `createPin` for the account named by the path id, whoever the caller
      is. An absent pin leaves the update with nothing to write. */
  function CreatePin(db: Db, pathId: string, pin: Option<int>): (t: Transition)
    ensures t.db.sessions == db.sessions && t.db.wallets == db.wallets && t.db.donations == db.donations
    ensures UserById(db, pathId).None? <==> t.outcome == Failed(ApiError(NOT_FOUND, NO_ACCOUNT))
    ensures UserById(db, pathId).None? ==> t.db == db
    ensures UserById(db, pathId).Some? ==> t.outcome == Respond(CREATED, PIN_OK, None)
    ensures UserById(db, pathId).Some? && pin.Some? ==> t.db.users == WithPin(db.users, pathId, pin.value)
    ensures pin.None? ==> t.db == db
  {
    match UserById(db, pathId)
    case None => Transition(Failed(ApiError(NOT_FOUND, NO_ACCOUNT)), db)
    case Some(k) =>
      var users := if pin.Some? then WithPin(db.users, db.users[k].id, pin.value) else db.users;
      Transition(Respond(CREATED, PIN_OK, None), db.(users := users))
  }

  /** `UserModel.findOne({ where: { id, account_pin: pin } })`. */
  function SenderWithPin(db: Db, id: string, pin: int): (k: Option<nat>)
    ensures k.Some? ==> k.value < |db.users| && db.users[k.value].id == id && db.users[k.value].account_pin == Some(pin)
    ensures k.None? <==> forall j :: 0 <= j < |db.users| ==> !(db.users[j].id == id && db.users[j].account_pin == Some(pin))
  {
    FirstIndex(db.users, (u: User) => u.id == id && u.account_pin == Some(pin))
  }

  /** `WalletModel.findOne({ where: { wallet_number, owner_id } })`. */
  function WalletOf(db: Db, number: int, owner: string): (k: Option<nat>)
    ensures k.Some? ==> k.value < |db.wallets| && db.wallets[k.value].wallet_number == number && db.wallets[k.value].owner_id == owner
    ensures k.None? <==> forall i :: 0 <= i < |db.wallets| ==> !(db.wallets[i].wallet_number == number && db.wallets[i].owner_id == owner)
  {
    FirstIndex(db.wallets, (w: Wallet) => w.wallet_number == number && w.owner_id == owner)
  }

  /** The rows of `wallets` with the given id holding `balance`: `save()`
      writes the instance back by primary key. */
  function WithBalance(wallets: seq<Wallet>, id: string, balance: int): (r: seq<Wallet>)
    ensures |r| == |wallets|
    ensures forall i :: 0 <= i < |wallets| && wallets[i].id == id ==> r[i] == wallets[i].(wallet_balance := balance)
    ensures forall i :: 0 <= i < |wallets| && wallets[i].id != id ==> r[i] == wallets[i]
  {
    UpdateWhere(wallets, (w: Wallet) => w.id == id, (w: Wallet) => w.(wallet_balance := balance))
  }

  /** The payload of a successful donation. */
  function DonationReceipt(amount: int, sender: User, beneficiary: User, wallet: Wallet): Object {
    map[
      "donated_amount" := Num(amount),
      "sender_name" := Str(sender.full_name),
      "beneficiary_name" := Str(beneficiary.full_name),
      "beneficiary_account_number" := Num(wallet.wallet_number)]
  }

  /** The failures of `donate`, in the order the handler meets them. */
  function DonateFailure(db: Db, caller: string, pathId: string, body: DonateBody, donationId: string): Option<Failure> {
    if body.pin.None? then Some(Unhandled(UNDEFINED_IN_WHERE))
    else if SenderWithPin(db, caller, body.pin.value).None? then Some(ApiError(NOT_FOUND, NO_ACCOUNT))
    else if UserById(db, pathId).None? then Some(ApiError(NOT_FOUND, NO_ACCOUNT))
    else if body.wallet_number.None? then Some(Unhandled(UNDEFINED_IN_WHERE))
    else if WalletOf(db, body.wallet_number.value, db.users[UserById(db, pathId).value].id).None? then Some(ApiError(NOT_FOUND, NO_WALLET))
    else if IsDonationId(db, donationId) then Some(Unhandled(DUPLICATE_KEY))
    else None
  }

  /** `donate` from the caller to the account named by the path id. The
      caller must hold the pin given; the wallet must carry the number given
      and belong to the beneficiary. The donation row is added, and the
      wallet's balance is SET to the amount, not increased by it. The reply
      is HTTP 201 with envelope status 200. `donationId` and `draw` stand for
      the fresh primary key and the random letters of the transaction id;
      `loadDate` is the date default fixed at start-up. */
  function Donate(db: Db, caller: string, pathId: string, body: DonateBody, donationId: string, draw: string, loadDate: int): (t: Transition)
    ensures t.db.users == db.users && t.db.sessions == db.sessions
    ensures DonateFailure(db, caller, pathId, body, donationId).Some? ==>
      t == Transition(Failed(DonateFailure(db, caller, pathId, body, donationId).value), db)
    ensures t.outcome.Done? <==> DonateFailure(db, caller, pathId, body, donationId).None?
    ensures |t.db.wallets| == |db.wallets|
    ensures t.outcome.Done? ==> body.pin.Some?
    ensures t.outcome.Done? ==>
      exists j :: 0 <= j < |db.users| && db.users[j].id == caller && db.users[j].account_pin == body.pin
    ensures t.outcome.Done? ==>
      exists i :: (0 <= i < |db.wallets| && db.wallets[i].owner_id == pathId &&
                   Some(db.wallets[i].wallet_number) == body.wallet_number &&
                   t.db.wallets[i].wallet_balance == body.amount_donated)
    ensures t.outcome.Done? ==>
      var sender := db.users[SenderWithPin(db, caller, body.pin.value).value];
      var beneficiary := db.users[UserById(db, pathId).value];
      var wallet := db.wallets[WalletOf(db, body.wallet_number.value, beneficiary.id).value];
      var d := NewDonation(donationId, caller, beneficiary.id, loadDate, draw).(amount_donated := body.amount_donated);
      t.db.donations == db.donations + [d] &&
      t.db.wallets == WithBalance(db.wallets, wallet.id, body.amount_donated) &&
      t.outcome == Done(Reply(CREATED, SendResponse(OK, DONATED_OK,
        Some(Obj(DonationReceipt(body.amount_donated, sender, beneficiary, wallet))))))
  {
    match DonateFailure(db, caller, pathId, body, donationId)
    case Some(f) => Transition(Failed(f), db)
    case None =>
      var sender := db.users[SenderWithPin(db, caller, body.pin.value).value];
      var beneficiary := db.users[UserById(db, pathId).value];
      var wallet := db.wallets[WalletOf(db, body.wallet_number.value, beneficiary.id).value];
      var d := NewDonation(donationId, caller, beneficiary.id, loadDate, draw).(amount_donated := body.amount_donated);
      var db1 := db.(donations := db.donations + [d], wallets := WithBalance(db.wallets, wallet.id, body.amount_donated));
      Transition(Done(Reply(CREATED, SendResponse(OK, DONATED_OK,
        Some(Obj(DonationReceipt(body.amount_donated, sender, beneficiary, wallet)))))), db1)
  }

  /** The success condition of `donate`, in terms of the tables: the pin
      and wallet number are given, the caller holds that pin, the path id
      names an account owning a wallet with that number, and the donation
      key is fresh. Nothing asks the caller and the beneficiary to differ. */
  predicate CanDonate(db: Db, caller: string, pathId: string, body: DonateBody, donationId: string) {
    body.pin.Some? && body.wallet_number.Some? &&
    (exists j :: 0 <= j < |db.users| && db.users[j].id == caller && db.users[j].account_pin == body.pin) &&
    IsUserId(db, pathId) &&
    (exists i :: 0 <= i < |db.wallets| && db.wallets[i].owner_id == pathId && db.wallets[i].wallet_number == body.wallet_number.value) &&
    !IsDonationId(db, donationId)
  }

  lemma NoDonateFailureExactly(db: Db, caller: string, pathId: string, body: DonateBody, donationId: string)
    ensures DonateFailure(db, caller, pathId, body, donationId).None? <==> CanDonate(db, caller, pathId, body, donationId)
  {
    if body.pin.Some? && body.wallet_number.Some? {
      if exists j :: 0 <= j < |db.users| && db.users[j].id == caller && db.users[j].account_pin == body.pin {
        var j :| 0 <= j < |db.users| && db.users[j].id == caller && db.users[j].account_pin == body.pin;
        assert SenderWithPin(db, caller, body.pin.value).Some?;
      }
      if exists i :: 0 <= i < |db.wallets| && db.wallets[i].owner_id == pathId && db.wallets[i].wallet_number == body.wallet_number.value {
        var i :| 0 <= i < |db.wallets| && db.wallets[i].owner_id == pathId && db.wallets[i].wallet_number == body.wallet_number.value;
        if IsUserId(db, pathId) {
          assert db.users[UserById(db, pathId).value].id == pathId;
          assert WalletOf(db, body.wallet_number.value, pathId).Some?;
        }
      }
    }
  }

  /** `donate` succeeds exactly under `CanDonate`. */
  lemma DonateSucceedsExactly(db: Db, caller: string, pathId: string, body: DonateBody, donationId: string, draw: string, loadDate: int)
    ensures Donate(db, caller, pathId, body, donationId, draw, loadDate).outcome.Done? <==> CanDonate(db, caller, pathId, body, donationId)
  {
    NoDonateFailureExactly(db, caller, pathId, body, donationId);
  }

  /** A successful `donate` writes the amount into the wallet it found and
      leaves every wallet's number and owner as they were. */
  lemma DonateSetsBalance(db: Db, caller: string, pathId: string, body: DonateBody, donationId: string, draw: string, loadDate: int)
    requires Donate(db, caller, pathId, body, donationId, draw, loadDate).outcome.Done?
    ensures var t := Donate(db, caller, pathId, body, donationId, draw, loadDate);
      var i := WalletOf(db, body.wallet_number.value, db.users[UserById(db, pathId).value].id).value;
      t.db.users == db.users && |t.db.wallets| == |db.wallets| && t.db.wallets[i].wallet_balance == body.amount_donated &&
      forall k :: 0 <= k < |db.wallets| ==>
        t.db.wallets[k].wallet_number == db.wallets[k].wallet_number && t.db.wallets[k].owner_id == db.wallets[k].owner_id
  {
    var t := Donate(db, caller, pathId, body, donationId, draw, loadDate);
    var i := WalletOf(db, body.wallet_number.value, db.users[UserById(db, pathId).value].id).value;
    assert t.db.wallets == WithBalance(db.wallets, db.wallets[i].id, body.amount_donated);
  }

  /** The wallet found by number and owner depends on those two fields only. */
  lemma WalletOfSameKeys(db: Db, db2: Db, number: int, owner: string)
    requires |db2.wallets| == |db.wallets|
    requires forall k :: 0 <= k < |db.wallets| ==>
      db2.wallets[k].wallet_number == db.wallets[k].wallet_number && db2.wallets[k].owner_id == db.wallets[k].owner_id
    ensures WalletOf(db2, number, owner) == WalletOf(db, number, owner)
  {
  }

  /** Two donations in a row into the same wallet leave the second amount as
      its balance: the first is overwritten, not added to. */
  lemma {:induction false} BalanceIsLastAmount(db: Db, caller: string, pathId: string, first: DonateBody, second: DonateBody,
                                               id1: string, id2: string, draw1: string, draw2: string, loadDate: int)
    requires first.wallet_number == second.wallet_number
    requires Donate(db, caller, pathId, first, id1, draw1, loadDate).outcome.Done?
    requires Donate(Donate(db, caller, pathId, first, id1, draw1, loadDate).db, caller, pathId, second, id2, draw2, loadDate).outcome.Done?
    ensures var b := db.users[UserById(db, pathId).value];
      var i := WalletOf(db, first.wallet_number.value, b.id).value;
      var t2 := Donate(Donate(db, caller, pathId, first, id1, draw1, loadDate).db, caller, pathId, second, id2, draw2, loadDate);
      i < |t2.db.wallets| && t2.db.wallets[i].wallet_balance == second.amount_donated &&
      (first.amount_donated != 0 ==> t2.db.wallets[i].wallet_balance != first.amount_donated + second.amount_donated)
  {
    var db1 := Donate(db, caller, pathId, first, id1, draw1, loadDate).db;
    DonateSetsBalance(db, caller, pathId, first, id1, draw1, loadDate);
    DonateSetsBalance(db1, caller, pathId, second, id2, draw2, loadDate);
    var b := db.users[UserById(db, pathId).value];
    assert db1.users[UserById(db1, pathId).value] == b;
    WalletOfSameKeys(db, db1, first.wallet_number.value, b.id);
  }

  /** The donations `caller` sent, in insertion order. */
  function SentBy(db: Db, caller: string): (r: seq<Donation>)
    ensures forall d :: d in r <==> d in db.donations && d.sender_id == caller
    ensures forall d :: multiset(r)[d] == if d.sender_id == caller then multiset(db.donations)[d] else 0
    ensures |r| == 0 <==> forall i :: 0 <= i < |db.donations| ==> db.donations[i].sender_id != caller
  {
    var r := Filter(db.donations, (d: Donation) => d.sender_id == caller);
    assert |r| == 0 <==> forall i :: 0 <= i < |db.donations| ==> db.donations[i].sender_id != caller by {
      if |r| == 0 {
        forall i | 0 <= i < |db.donations| ensures db.donations[i].sender_id != caller {
          assert db.donations[i] in db.donations;
        }
      } else {
        assert r[0] in r;
      }
    }
    r
  }

  /** The included beneficiary, limited to three attributes; `null` when the
      outer join finds no account. */
  function BeneficiaryJson(db: Db, d: Donation): (v: Value)
    ensures v.Null? <==> !IsUserId(db, d.beneficiary_id)
    ensures v.Obj? ==> v.fields.Keys == {"full_name", "email", "id"} && v.fields["id"] == Str(d.beneficiary_id)
  {
    match UserById(db, d.beneficiary_id)
    case None => Null
    case Some(k) =>
      var u := db.users[k];
      Obj(map["full_name" := Str(u.full_name), "email" := Str(u.email), "id" := Str(u.id)])
  }

  /** A donation as listed with its beneficiary. */
  function DonationView(db: Db, d: Donation): (o: Object)
    ensures o.Keys == DonationRow(d).Keys + {"beneficiary"}
    ensures o["beneficiary"] == BeneficiaryJson(db, d)
    ensures forall k :: k in DonationRow(d) ==> o[k] == DonationRow(d)[k]
  {
    DonationToJson(d)["beneficiary" := BeneficiaryJson(db, d)]
  }

  function Views(db: Db, ds: seq<Donation>): (vs: seq<Value>)
    ensures |vs| == |ds|
    ensures forall i :: 0 <= i < |ds| ==> vs[i] == Obj(DonationView(db, ds[i]))
  {
    seq(|ds|, i requires 0 <= i < |ds| => Obj(DonationView(db, ds[i])))
  }

  /** `getDonations`: the caller's donations with their beneficiaries, or
      404 when there are none. Paging parameters are accepted and ignored. */
  function GetDonations(db: Db, caller: string): (o: Outcome)
    ensures o.Failed? <==> forall i :: 0 <= i < |db.donations| ==> db.donations[i].sender_id != caller
    ensures o.Failed? ==> o == Failed(ApiError(NOT_FOUND, NO_DONATIONS))
    ensures o.Done? ==> o == Respond(OK, LISTED_OK, Some(Arr(Views(db, SentBy(db, caller)))))
  {
    var mine := SentBy(db, caller);
    if |mine| == 0 then Failed(ApiError(NOT_FOUND, NO_DONATIONS))
    else Respond(OK, LISTED_OK, Some(Arr(Views(db, mine))))
  }

  /** `DonationModel.findOne({ where: { id, sender_id } })`. */
  function DonationOf(db: Db, id: string, sender: string): (k: Option<nat>)
    ensures k.Some? ==> k.value < |db.donations| && db.donations[k.value].id == id && db.donations[k.value].sender_id == sender
    ensures k.None? <==> forall i :: 0 <= i < |db.donations| ==> !(db.donations[i].id == id && db.donations[i].sender_id == sender)
  {
    FirstIndex(db.donations, (d: Donation) => d.id == id && d.sender_id == sender)
  }

  /** `getDonation`: the donation named by the path id, provided the caller
      sent it. */
  function GetDonation(db: Db, caller: string, pathId: string): (o: Outcome)
    ensures o.Failed? <==> forall i :: 0 <= i < |db.donations| ==> !(db.donations[i].id == pathId && db.donations[i].sender_id == caller)
    ensures o.Failed? ==> o == Failed(ApiError(NOT_FOUND, NO_DONATION))
    ensures o.Done? ==>
      exists i :: (0 <= i < |db.donations| && db.donations[i].id == pathId && db.donations[i].sender_id == caller &&
                   o == Respond(OK, LISTED_OK, Some(Obj(DonationView(db, db.donations[i])))))
  {
    match DonationOf(db, pathId, caller)
    case None => Failed(ApiError(NOT_FOUND, NO_DONATION))
    case Some(k) => Respond(OK, LISTED_OK, Some(Obj(DonationView(db, db.donations[k]))))
  }

  /** `date BETWEEN startDate AND endDate`, bounds included. A missing bound
      is bound as SQL `NULL`, and no comparison with `NULL` holds. */
  predicate InDateRange(d: Donation, q: DateQuery) {
    q.startDate.Some? && q.endDate.Some? && q.startDate.value <= d.date <= q.endDate.value
  }

  /** The donations in the range, whoever sent them, in insertion order. */
  function InRange(db: Db, q: DateQuery): (r: seq<Donation>)
    ensures forall d :: d in r <==> d in db.donations && InDateRange(d, q)
    ensures forall d :: multiset(r)[d] == if InDateRange(d, q) then multiset(db.donations)[d] else 0
    ensures |r| == 0 <==> forall i :: 0 <= i < |db.donations| ==> !InDateRange(db.donations[i], q)
    ensures (forall i :: 0 <= i < |db.donations| ==> InDateRange(db.donations[i], q)) ==> r == db.donations
  {
    var inRange := (d: Donation) => InDateRange(d, q);
    var r := Filter(db.donations, inRange);
    FilterAll(db.donations, inRange);
    assert |r| == 0 <==> forall i :: 0 <= i < |db.donations| ==> !InDateRange(db.donations[i], q) by {
      if |r| == 0 {
        forall i | 0 <= i < |db.donations| ensures !InDateRange(db.donations[i], q) {
          assert db.donations[i] in db.donations;
        }
      } else {
        assert r[0] in r;
      }
    }
    r
  }

  function Rows(ds: seq<Donation>): (vs: seq<Value>)
    ensures |vs| == |ds|
    ensures forall i :: 0 <= i < |ds| ==> vs[i] == Obj(DonationToJson(ds[i]))
  {
    seq(|ds|, i requires 0 <= i < |ds| => Obj(DonationToJson(ds[i])))
  }

  /** `getDonationsByDate`: every donation dated within the range, or 404
      when there is none. */
  function GetDonationsByDate(db: Db, q: DateQuery): (o: Outcome)
    ensures o.Failed? <==> forall i :: 0 <= i < |db.donations| ==> !InDateRange(db.donations[i], q)
    ensures o.Failed? ==> o == Failed(ApiError(NOT_FOUND, NO_DONATION))
    ensures o.Done? ==> o == Respond(OK, LISTED_OK, Some(Arr(Rows(InRange(db, q)))))
    ensures q.startDate.None? || q.endDate.None? || q.startDate.value > q.endDate.value ==> o.Failed?
  {
    var found := InRange(db, q);
    if |found| == 0 then Failed(ApiError(NOT_FOUND, NO_DONATION))
    else Respond(OK, LISTED_OK, Some(Arr(Rows(found))))
  }
}

=== FILE: user_model.dfy ===
/** The user record: its columns and defaults, the password hooks, the JSON
    rendering that hides secrets, and `getSession`, which issues a token pair
    with its expiry figures. */
module UserModel {
  import opened Common
  import opened Json
  import AuthService
  import Config
  import Decimal

  datatype User = User(
    id: string,
    email: string,
    password: string,
    full_name: string,
    is_verified: bool,
    account_pin: Option<int>,
    wallet_balance: Option<string>)

  /** A row as `create` builds it before its hooks run: the columns it is not
      given take their defaults (`is_verified` false, `account_pin` and the
      string `wallet_balance` null). */
  function NewUser(id: string, email: string, password: string, full_name: string): User {
    User(id, email, password, full_name, false, None, None)
  }

  /** bcrypt is not modelled: `Hash` stands for it through the one fact the
      code relies on, that comparing a password with a hash succeeds exactly
      for the password that was hashed. */
  const HASH_TAG: string := "$2b$10$"

  function Hash(plain: string): string {
    HASH_TAG + plain
  }

  /** `comparePassword(password, hash)`. */
  predicate Compare(plain: string, hash: string) {
    hash == Hash(plain)
  }

  lemma CompareHash(plain: string, other: string)
    ensures Compare(plain, Hash(other)) <==> plain == other
  {
    if Compare(plain, Hash(other)) {
      assert Hash(plain)[|HASH_TAG|..] == plain;
      assert Hash(other)[|HASH_TAG|..] == other;
    }
  }

  lemma HashIsNotPlain(plain: string)
    ensures Hash(plain) != plain
  {
    assert |Hash(plain)| > |plain|;
  }

  /** The `beforeCreate` hook: the stored password is the hash of the one
      given, and nothing else changes. */
  function BeforeCreate(u: User): (r: User)
    ensures Compare(u.password, r.password)
    ensures r.password != u.password
    ensures r.(password := u.password) == u
  {
    HashIsNotPlain(u.password);
    u.(password := Hash(u.password))
  }

  /** `UserModel.create({ email, password, full_name })` with its hook. */
  function CreateUser(id: string, email: string, password: string, full_name: string): (u: User)
    ensures u.id == id && u.email == email && u.full_name == full_name
    ensures !u.is_verified && u.account_pin.None? && u.wallet_balance.None?
    ensures Compare(password, u.password) && u.password != password
  {
    BeforeCreate(NewUser(id, email, password, full_name))
  }

  /** The `beforeUpdate` hook: `pending` is the instance about to be saved over
      `stored`. The password is rehashed only when it was changed. */
  function BeforeUpdate(stored: User, pending: User): (r: User)
    ensures r.(password := pending.password) == pending
    ensures pending.password == stored.password ==> r.password == stored.password
    ensures pending.password != stored.password ==> Compare(pending.password, r.password) && r.password != pending.password
  {
    if pending.password == stored.password then pending else BeforeCreate(pending)
  }

  /** The row's `dataValues`. */
  function UserRow(u: User): Object {
    map[
      "id" := Str(u.id),
      "email" := Str(u.email),
      "password" := Str(u.password),
      "full_name" := Str(u.full_name),
      "is_verified" := Bool(u.is_verified),
      "account_pin" := OptNum(u.account_pin),
      "wallet_balance" := OptStr(u.wallet_balance)]
  }

  /** `toJSON`: every column but `password` and `account_pin`, with `id`
      rendered through `String`. */
  function UserToJson(u: User): (o: Object)
    ensures "password" !in o && "account_pin" !in o
    ensures o.Keys == UserRow(u).Keys - {"password", "account_pin"}
    ensures "id" in o && o["id"] == Str(u.id)
    ensures forall k :: k in o && k != "id" ==> o[k] == UserRow(u)[k]
  {
    var row := UserRow(u);
    (row - {"password", "account_pin"})["id" := Str(Stringify(row["id"]))]
  }

  /** What `getSession` returns. `expires_at` is kept as the epoch
      milliseconds it is formatted from. */
  datatype UserSession = UserSession(
    issued_at: int,
    expires_at: int,
    expires_in: int,
    access_token: string,
    refresh_token: string,
    user: Object)

  const SECONDS_PER_DAY: nat := 86400

  /** `Number(expiry.replace(/\D/g, ""))`: the digits of the expiry string,
      read in order, taken as a number of days. */
  function ExpiryDays(expiry: string): nat {
    Decimal.ParseDecimal(Decimal.KeepDigits(expiry))
  }

  /** Adding whole seconds to a time in milliseconds adds them to its
      whole seconds. */
  lemma AddSeconds(ms: nat, seconds: nat)
    ensures (ms + seconds * 1000) / 1000 == ms / 1000 + seconds
  {
  }

  /** `user.getSession()` at wall-clock time `nowMs` (epoch milliseconds). */
  function GetSession(u: User, sign: AuthService.Signer, nowMs: nat): (s: UserSession)
    ensures s.issued_at == nowMs / 1000
    ensures s.expires_in == s.issued_at + ExpiryDays(Config.ACCESS_TOKEN_EXPIRY) * SECONDS_PER_DAY
    ensures s.expires_at == s.expires_in * 1000
    ensures s.access_token == AuthService.IssueAccessToken(sign, u.id, u.email)
    ensures s.refresh_token == AuthService.IssueRefreshToken(sign, u.id, u.email)
    ensures s.user.Keys == UserToJson(u).Keys
    ensures s.user["is_verified"] == Bool(true)
    ensures forall k :: k in s.user && k != "is_verified" ==> s.user[k] == UserToJson(u)[k]
  {
    var user := UserToJson(u);
    var issued_at := nowMs / 1000;
    var seconds := ExpiryDays(Config.ACCESS_TOKEN_EXPIRY) * SECONDS_PER_DAY;
    var expires_in := (nowMs + seconds * 1000) / 1000;
    AddSeconds(nowMs, seconds);
    UserSession(
      issued_at,
      expires_in * 1000,
      expires_in,
      AuthService.IssueAccessToken(sign, user["id"].s, user["email"].s),
      AuthService.IssueRefreshToken(sign, user["id"].s, user["email"].s),
      user["is_verified" := Bool(true)])
  }

  /** The session as it is sent in the sign-in payload. */
  function UserSessionJson(s: UserSession): Object {
    map[
      "issued_at" := Num(s.issued_at),
      "expires_at" := Num(s.expires_at),
      "expires_in" := Num(s.expires_in),
      "access_token" := Str(s.access_token),
      "refresh_token" := Str(s.refresh_token),
      "user" := Obj(s.user)]
  }

  lemma DefaultExpiryDays()
    ensures ExpiryDays(Config.ACCESS_TOKEN_EXPIRY) == 30
  {
    var e := Config.ACCESS_TOKEN_EXPIRY;
    assert e == "30" + "d";
    Decimal.KeepDigitsConcat("30", "d");
    Decimal.KeepDigitsFixed("30");
    assert Decimal.KeepDigits("d") == "";
    assert "30"[..1] == "3";
  }

  /** With the default "30d", `expires_in` is issue time plus 30 days: an
      absolute timestamp, not the number of seconds the token lives. */
  lemma ExpiresInIsAbsolute(u: User, sign: AuthService.Signer, nowMs: nat)
    ensures GetSession(u, sign, nowMs).expires_in == nowMs / 1000 + 30 * SECONDS_PER_DAY
    ensures nowMs >= 1000 ==> GetSession(u, sign, nowMs).expires_in != 30 * SECONDS_PER_DAY
  {
    DefaultExpiryDays();
  }
}

=== FILE: user_validation.dfy ===
/** The request schemas of the user routes and the typed bodies, parameters
    and queries the handlers read from the validated objects. */
module UserValidation {
  import opened Common
  import opened Json
  import opened Joi
  import Decimal
  import WalletModel

  const PIN_MIN: int := 1000
  const PIN_MAX: int := 9999
  const WALLET_NUMBER_MIN: int := 1000000000
  const WALLET_NUMBER_MAX: int := 9999999999
  const MIN_DONATION: int := 10
  const DEFAULT_PAGE: int := 1
  const DEFAULT_LIMIT: int := 10

  /** `Joi.number().integer().min(1000).max(9999)`. */
  const PIN_RULE: Rule := NumberRule(Some(PIN_MIN), Some(PIN_MAX), None, false)

  /** The `:id` route parameter: `Joi.string().required()`. */
  const ID_PARAMS: Schema := [Field("id", StringRule(0, None, false, true))]

  const CREATE_PIN: Schema := [Field("account_pin", PIN_RULE)]

  const DONATE: Schema := [
    Field("pin", PIN_RULE),
    Field("amount_donated", NumberRule(Some(MIN_DONATION), None, None, true)),
    Field("wallet_number", NumberRule(Some(WALLET_NUMBER_MIN), Some(WALLET_NUMBER_MAX), None, false))]

  const DATE_QUERY: Schema := [Field("endDate", DateRule), Field("startDate", DateRule)]

  const PAGE_QUERY: Schema := [
    Field("page", NumberRule(None, None, Some(DEFAULT_PAGE), false)),
    Field("limit", NumberRule(None, None, Some(DEFAULT_LIMIT), false))]

  /** `v` converts to a number between `lo` and `hi`. */
  predicate NumberBetween(v: Value, lo: int, hi: int) {
    AsNumber(v).Some? && lo <= AsNumber(v).value <= hi
  }

  /** What an optional numeric property reads as after conversion. */
  function OptNumber(body: Object, key: string): Option<int> {
    if key in body then AsNumber(body[key]) else None
  }

  datatype DonateBody = DonateBody(pin: Option<int>, amount_donated: int, wallet_number: Option<int>)

  datatype DateQuery = DateQuery(startDate: Option<int>, endDate: Option<int>)

  datatype PageQuery = PageQuery(page: int, limit: int)

  /** The route parameter: Express matches `:id` against a non-empty path
      segment, and such a segment always passes. */
  lemma {:induction false} IdParamSchema(id: string)
    requires id != ""
    ensures DistinctKeys(ID_PARAMS)
    ensures Validate(ID_PARAMS, map["id" := Str(id)]) == Some(map["id" := Str(id)])
  {
    var body := map["id" := Str(id)];
    assert ID_PARAMS[0].key == "id";
    assert Keys(ID_PARAMS) == {"id"};
    var r := Validate(ID_PARAMS, body);
    assert Get(r.value, "id") == Some(Str(id));
    assert r.value.Keys == {"id"};
  }

  /** A create-pin body passes exactly when it holds nothing but an optional
      `account_pin` converting to a number in 1000..9999, which the handler
      then receives as that number. */
  lemma {:induction false} CreatePinSchema(body: Object)
    ensures DistinctKeys(CREATE_PIN)
    ensures Validate(CREATE_PIN, body).Some? <==>
      body.Keys <= {"account_pin"} && ("account_pin" in body ==> NumberBetween(body["account_pin"], PIN_MIN, PIN_MAX))
    ensures var r := Validate(CREATE_PIN, body);
      r.Some? ==> (r.value.Keys == body.Keys &&
        ("account_pin" in body ==> r.value["account_pin"] == Num(AsNumber(body["account_pin"]).value)))
  {
    assert CREATE_PIN[0].key == "account_pin";
    assert Keys(CREATE_PIN) == {"account_pin"};
    var r := Validate(CREATE_PIN, body);
    if r.Some? {
      assert Get(r.value, "account_pin") == CheckField(PIN_RULE, Get(body, "account_pin")).value;
    }
  }

  /** The create-pin handler's reading of the body, after validation: the
      pin, or `None` when the body leaves it out. */
  function ParseCreatePin(body: Object): (r: Option<Option<int>>)
    ensures r.Some? <==>
      body.Keys <= {"account_pin"} && ("account_pin" in body ==> NumberBetween(body["account_pin"], PIN_MIN, PIN_MAX))
    ensures r.Some? ==> r.value == OptNumber(body, "account_pin")
  {
    CreatePinSchema(body);
    match Validate(CREATE_PIN, body)
    case None => None
    case Some(o) => Some(if "account_pin" in o then Some(o["account_pin"].n) else None)
  }

  /** A donate body passes exactly when it holds nothing but a required
      `amount_donated` from 10 up to the largest safe integer, an optional
      `pin` in 1000..9999 and an optional `wallet_number` of ten digits'
      range, each converting to a number. */
  lemma {:induction false} DonateSchema(body: Object)
    ensures DistinctKeys(DONATE)
    ensures Validate(DONATE, body).Some? <==>
      body.Keys <= {"pin", "amount_donated", "wallet_number"} &&
      "amount_donated" in body && NumberBetween(body["amount_donated"], MIN_DONATION, Decimal.MAX_SAFE_INTEGER) &&
      ("pin" in body ==> NumberBetween(body["pin"], PIN_MIN, PIN_MAX)) &&
      ("wallet_number" in body ==> NumberBetween(body["wallet_number"], WALLET_NUMBER_MIN, WALLET_NUMBER_MAX))
  {
    assert DONATE[0].key == "pin" && DONATE[1].key == "amount_donated" && DONATE[2].key == "wallet_number";
    assert Keys(DONATE) == {"pin", "amount_donated", "wallet_number"};
    var c0 := CheckField(DONATE[0].rule, Get(body, "pin"));
    var c1 := CheckField(DONATE[1].rule, Get(body, "amount_donated"));
    var c2 := CheckField(DONATE[2].rule, Get(body, "wallet_number"));
    BoundedNumberField(PIN_MIN, Some(PIN_MAX), false, Get(body, "pin"));
    BoundedNumberField(MIN_DONATION, None, true, Get(body, "amount_donated"));
    BoundedNumberField(WALLET_NUMBER_MIN, Some(WALLET_NUMBER_MAX), false, Get(body, "wallet_number"));
    assert FieldsAccept(DONATE, body) <==> c0.Some? && c1.Some? && c2.Some?;
  }

  /** What passes, passes as numbers. */
  lemma {:induction false} DonateSchemaValues(body: Object)
    requires DistinctKeys(DONATE)
    ensures var r := Validate(DONATE, body);
      r.Some? ==> r.value.Keys == body.Keys && forall k :: k in body ==> r.value[k] == Num(AsNumber(body[k]).value)
  {
    var r := Validate(DONATE, body);
    if r.Some? {
      assert DONATE[0].key == "pin" && DONATE[1].key == "amount_donated" && DONATE[2].key == "wallet_number";
      assert Keys(DONATE) == {"pin", "amount_donated", "wallet_number"};
      ValidatedKeys(DONATE, body);
      forall k | k in body ensures r.value[k] == Num(AsNumber(body[k]).value) {
        var i := if k == "pin" then 0 else if k == "amount_donated" then 1 else 2;
        assert DONATE[i].key == k && DONATE[i].rule.NumberRule?;
      }
    }
  }

  /** A `Joi.number().min(lo)`, optionally `.max(hi)`, with no default. */
  lemma BoundedNumberField(lo: int, hi: Option<int>, required: bool, v: Option<Value>)
    ensures var c := CheckField(NumberRule(Some(lo), hi, None, required), v);
      (c.Some? <==>
        (v.None? ==> !required) &&
        (v.Some? ==> IsSafeNumber(v.value) && lo <= AsNumber(v.value).value &&
                     (hi.None? || AsNumber(v.value).value <= hi.value))) &&
      (c.Some? ==> c.value == if v.Some? then Some(Num(AsNumber(v.value).value)) else None)
  {
  }

  /** The donate handler's reading of the body, after validation. */
  function ParseDonate(body: Object): (r: Option<DonateBody>)
    ensures r.Some? <==>
      body.Keys <= {"pin", "amount_donated", "wallet_number"} &&
      "amount_donated" in body && NumberBetween(body["amount_donated"], MIN_DONATION, Decimal.MAX_SAFE_INTEGER) &&
      ("pin" in body ==> NumberBetween(body["pin"], PIN_MIN, PIN_MAX)) &&
      ("wallet_number" in body ==> NumberBetween(body["wallet_number"], WALLET_NUMBER_MIN, WALLET_NUMBER_MAX))
    ensures r.Some? ==> r.value.amount_donated == AsNumber(body["amount_donated"]).value
    ensures r.Some? ==> r.value.pin == OptNumber(body, "pin")
    ensures r.Some? ==> r.value.wallet_number == OptNumber(body, "wallet_number")
  {
    DonateSchema(body);
    DonateSchemaValues(body);
    match Validate(DONATE, body)
    case None => None
    case Some(o) =>
      Some(DonateBody(
        if "pin" in o then Some(o["pin"].n) else None,
        o["amount_donated"].n,
        if "wallet_number" in o then Some(o["wallet_number"].n) else None))
  }

  /** A by-date query passes exactly when it holds nothing but optional
      `startDate` and `endDate` values that convert to timestamps of valid
      dates. */
  lemma {:induction false} DateQuerySchema(query: Object)
    ensures DistinctKeys(DATE_QUERY)
    ensures Validate(DATE_QUERY, query).Some? <==>
      query.Keys <= {"startDate", "endDate"} &&
      ("startDate" in query ==> IsTimestamp(query["startDate"])) &&
      ("endDate" in query ==> IsTimestamp(query["endDate"]))
    ensures var r := Validate(DATE_QUERY, query);
      r.Some? ==> r.value.Keys == query.Keys && forall k :: k in query ==> r.value[k] == Num(AsNumber(query[k]).value)
  {
    assert DATE_QUERY[0].key == "endDate" && DATE_QUERY[1].key == "startDate";
    assert Keys(DATE_QUERY) == {"startDate", "endDate"};
    var r := Validate(DATE_QUERY, query);
    if r.Some? {
      assert Get(r.value, "endDate") == CheckField(DateRule, Get(query, "endDate")).value;
      assert Get(r.value, "startDate") == CheckField(DateRule, Get(query, "startDate")).value;
    }
  }

  /** The by-date handler's reading of the query, after validation. */
  function ParseDateQuery(query: Object): (r: Option<DateQuery>)
    ensures r.Some? <==>
      query.Keys <= {"startDate", "endDate"} &&
      ("startDate" in query ==> IsTimestamp(query["startDate"])) &&
      ("endDate" in query ==> IsTimestamp(query["endDate"]))
    ensures r.Some? ==> r.value == DateQuery(OptNumber(query, "startDate"), OptNumber(query, "endDate"))
  {
    DateQuerySchema(query);
    match Validate(DATE_QUERY, query)
    case None => None
    case Some(o) =>
      Some(DateQuery(
        if "startDate" in o then Some(o["startDate"].n) else None,
        if "endDate" in o then Some(o["endDate"].n) else None))
  }

  /** A listing query passes exactly when it holds nothing but optional
      `page` and `limit` converting to safe integers; absent ones read as 1
      and 10. */
  lemma {:induction false} PageQuerySchema(query: Object)
    ensures DistinctKeys(PAGE_QUERY)
    ensures Validate(PAGE_QUERY, query).Some? <==>
      query.Keys <= {"page", "limit"} &&
      ("page" in query ==> IsSafeNumber(query["page"])) &&
      ("limit" in query ==> IsSafeNumber(query["limit"]))
    ensures var r := Validate(PAGE_QUERY, query);
      r.Some? ==> (r.value.Keys == {"page", "limit"} &&
        r.value["page"] == Num(OptNumber(query, "page").GetOr(DEFAULT_PAGE)) &&
        r.value["limit"] == Num(OptNumber(query, "limit").GetOr(DEFAULT_LIMIT)))
  {
    assert PAGE_QUERY[0].key == "page" && PAGE_QUERY[1].key == "limit";
    assert Keys(PAGE_QUERY) == {"page", "limit"};
    var r := Validate(PAGE_QUERY, query);
    if r.Some? {
      assert Get(r.value, "page") == CheckField(PAGE_QUERY[0].rule, Get(query, "page")).value;
      assert Get(r.value, "limit") == CheckField(PAGE_QUERY[1].rule, Get(query, "limit")).value;
    }
  }

  /** The listing query after validation, defaults filled in. */
  function ParsePageQuery(query: Object): (r: Option<PageQuery>)
    ensures r.Some? <==>
      query.Keys <= {"page", "limit"} &&
      ("page" in query ==> IsSafeNumber(query["page"])) &&
      ("limit" in query ==> IsSafeNumber(query["limit"]))
    ensures r.Some? ==> r.value == PageQuery(OptNumber(query, "page").GetOr(DEFAULT_PAGE), OptNumber(query, "limit").GetOr(DEFAULT_LIMIT))
  {
    PageQuerySchema(query);
    match Validate(PAGE_QUERY, query)
    case None => None
    case Some(o) => Some(PageQuery(o["page"].n, o["limit"].n))
  }

  /** A donation amount sent as a JSON number passes exactly from 10 up to
      the largest safe integer. */
  lemma AmountRange(n: int)
    ensures ParseDonate(map["amount_donated" := Num(n)]).Some? <==> MIN_DONATION <= n <= Decimal.MAX_SAFE_INTEGER
  {
  }

  /** A query value of decimal digits passes as a page exactly up to the
      largest safe integer, and as a date exactly up to the last valid
      timestamp: past those, Joi refuses it. */
  lemma DigitQueryRange(n: nat)
    ensures ParsePageQuery(map["page" := Str(Decimal.NatToString(n))]).Some? <==> n <= Decimal.MAX_SAFE_INTEGER
    ensures ParseDateQuery(map["startDate" := Str(Decimal.NatToString(n))]).Some? <==> n <= MAX_DATE_MS
  {
    Decimal.ParseNatToString(n);
    var v := Str(Decimal.NatToString(n));
    assert AsNumber(v) == Some(n);
    assert map["page" := v].Keys == {"page"};
    assert map["startDate" := v].Keys == {"startDate"};
  }

  /** The pin range is exactly the four-digit numbers. */
  lemma PinRangeIsFourDigits(n: nat)
    ensures PIN_MIN <= n <= PIN_MAX <==> |Decimal.NatToString(n)| == 4
  {
    Decimal.DigitCount(n, 4);
    assert Decimal.Pow10(3) == 1000 && Decimal.Pow10(4) == 10000;
  }

  /** The wallet-number range is exactly the ten-digit numbers. */
  lemma WalletRangeIsTenDigits(n: nat)
    ensures WALLET_NUMBER_MIN <= n <= WALLET_NUMBER_MAX <==> |Decimal.NatToString(n)| == 10
  {
    Decimal.DigitCount(n, 10);
    assert Decimal.Pow10(9) == 1000000000 && Decimal.Pow10(10) == 10000000000;
  }

  /** Every generated wallet number passes the donate schema's
      `wallet_number` rule. */
  lemma GeneratedWalletNumberAccepted(id: string, owner_id: string, u: real)
    requires 0.0 <= u < 1.0
    ensures NumberBetween(Num(WalletModel.NewWallet(id, owner_id, u).wallet_number), WALLET_NUMBER_MIN, WALLET_NUMBER_MAX)
  {
  }
}

=== FILE: wallet_model.dfy ===
/** The wallet record: a balance and a number, owned by one user. */
module WalletModel {
  import opened Json
  import Config
  import Decimal
  import WalletNumber

  datatype Wallet = Wallet(
    id: string,
    owner_id: string,
    wallet_balance: int,
    wallet_number: int)

  /** A row as `create({ owner_id })` builds it: the balance defaults to 0 and
      the number to `generateWalletNumber()` at the default bounds, where `u`
      is the uniform draw in [0, 1) behind `Math.random`. */
  function NewWallet(id: string, owner_id: string, u: real): (w: Wallet)
    requires 0.0 <= u < 1.0
    ensures w.id == id && w.owner_id == owner_id
    ensures w.wallet_balance == 0
    ensures 2267100000 <= w.wallet_number <= 2267900000
    ensures |Decimal.NatToString(w.wallet_number)| == 10
    ensures Decimal.NatToString(w.wallet_number)[..4] == WalletNumber.PREFIX
  {
    WalletNumber.DefaultBoundsRange(u);
    var n := WalletNumber.GenerateWalletNumber(Config.OTP_MIN_NUMBER, Config.OTP_MAX_NUMBER, u);
    Wallet(id, owner_id, 0, n.value)
  }

  /** The row's `dataValues`. */
  function WalletRow(w: Wallet): Object {
    map[
      "id" := Str(w.id),
      "owner_id" := Str(w.owner_id),
      "wallet_balance" := Num(w.wallet_balance),
      "wallet_number" := Num(w.wallet_number)]
  }

  /** `toJSON`: every column, with `id` rendered through `String`. */
  function WalletToJson(w: Wallet): (o: Object)
    ensures o.Keys == WalletRow(w).Keys
    ensures o["id"] == Str(w.id)
    ensures forall k :: k in o && k != "id" ==> o[k] == WalletRow(w)[k]
  {
    var row := WalletRow(w);
    (row - {"id"})["id" := Str(Stringify(row["id"]))]
  }
}

=== FILE: wallet_number.dfy ===
/** Wallet numbers: the digits "2267" followed by the decimal text of an
    integer drawn uniformly between the configured bounds. `Math.random()`
    is the parameter `u`, a real in [0, 1). */
module WalletNumber {
  import opened Common
  import opened Decimal
  import Config

  const PREFIX: string := "2267"

  function Ceil(x: real): int {
    -((-x).Floor)
  }

  /** `Math.floor(Math.random() * (max - min + 1)) + min` after
      `min = Math.ceil(min)` and `max = Math.floor(max)`. */
  function RandomInt(min: real, max: real, u: real): (r: int)
    requires 0.0 <= u < 1.0
    ensures Ceil(min) <= max.Floor ==> Ceil(min) <= r <= max.Floor
    ensures Ceil(min) > max.Floor ==> max.Floor < r <= Ceil(min)
  {
    var lo := Ceil(min);
    var hi := max.Floor;
    var w := hi - lo + 1;
    ScaledFloor(u, w);
    (u * w as real).Floor + lo
  }

  lemma ScaledFloor(u: real, w: int)
    requires 0.0 <= u < 1.0
    ensures w >= 1 ==> 0 <= (u * w as real).Floor <= w - 1
    ensures w <= 0 ==> w <= (u * w as real).Floor <= 0
  {
    var x := u * w as real;
    if w >= 1 {
      assert 0.0 <= x < w as real by {
        assert u * w as real < 1.0 * w as real;
      }
    } else {
      assert w as real <= x <= 0.0 by {
        assert u * w as real >= 1.0 * w as real;
      }
    }
  }

  /** `Number(`2267${r}`)` for a non-negative draw. */
  function FromDraw(r: nat): (n: nat)
    ensures NatToString(n) == PREFIX + NatToString(r)
    ensures n == 2267 * Pow10(|NatToString(r)|) + r
  {
    var text := PREFIX + NatToString(r);
    ParseConcat(PREFIX, NatToString(r));
    ParseNatToString(r);
    assert ParseDecimal(PREFIX) == 2267 by {
      assert "2"[..0] == "";
      assert ParseDecimal("2") == 2;
      assert "22"[..1] == "2";
      assert ParseDecimal("22") == 22;
      assert "226"[..2] == "22";
      assert ParseDecimal("226") == 226;
      assert PREFIX[..3] == "226";
    }
    assert Canonical(text) by {
      assert text[0] == '2';
    }
    NatToStringParse(text);
    ParseDecimal(text)
  }

  /** The number is a safe integer, and so exactly what the JavaScript
      expression yields, exactly when the draw has at most twelve digits.
      A longer draw gives seventeen or more digits, above 2^53, where
      `Number` rounds. */
  lemma {:induction false} FromDrawExactRange(r: nat)
    ensures FromDraw(r) <= MAX_SAFE_INTEGER <==> r < Pow10(12)
  {
    var s := NatToString(r);
    ParseNatToString(r);
    assert Pow10(12) == 1000000000000;
    if r < Pow10(12) {
      if |s| > 12 {
        LeadingDigitBound(s);
        Pow10Monotone(12, |s| - 1);
      }
      Pow10Monotone(|s|, 12);
    } else {
      if |s| <= 12 {
        Pow10Monotone(|s|, 12);
      }
      Pow10Monotone(13, |s|);
      assert Pow10(13) == 10 * Pow10(12);
    }
  }

  /** `generateWalletNumber(min, max)`. A negative draw makes the text
      "2267-…", which `Number` reads as NaN: that is `None`. */
  function GenerateWalletNumber(min: real, max: real, u: real): (n: Option<nat>)
    requires 0.0 <= u < 1.0
    ensures n.Some? <==> RandomInt(min, max, u) >= 0
    ensures n.Some? ==> NatToString(n.value) == PREFIX + NatToString(RandomInt(min, max, u))
    ensures 0.0 <= min && 0.0 <= max ==> n.Some?
    ensures n.Some? ==> (n.value <= MAX_SAFE_INTEGER <==> RandomInt(min, max, u) < Pow10(12))
  {
    var r := RandomInt(min, max, u);
    if r < 0 then None else FromDrawExactRange(r); Some(FromDraw(r))
  }

  /** With the default bounds the number is ten digits between 2267100000 and
      2267900000. */
  lemma DefaultBoundsRange(u: real)
    requires 0.0 <= u < 1.0
    ensures var n := GenerateWalletNumber(Config.OTP_MIN_NUMBER, Config.OTP_MAX_NUMBER, u);
      n.Some? && 2267100000 <= n.value <= 2267900000 && |NatToString(n.value)| == 10
  {
    var r := RandomInt(Config.OTP_MIN_NUMBER, Config.OTP_MAX_NUMBER, u);
    assert Ceil(Config.OTP_MIN_NUMBER) == 100000;
    assert Config.OTP_MAX_NUMBER.Floor == 900000;
    assert 100000 <= r <= 900000;
    DigitCount(r, 6);
    assert Pow10(6) == 1000000;
    var n := FromDraw(r);
    assert n == 2267000000 + r;
    DigitCount(n, 10);
    assert Pow10(10) == 10000000000;
  }
}
